=== FILE: README.md ===
# PatPat core in Dafny

A Dafny model of the core of PatPat, a desktop pet: a sprite cat that idles,
walks to a random column of the screen and reacts to clicks. The model covers:

- the small JSON parser and its typed accessors (`Json`, `JsonParser`), with
  round-trip laws for its strings, literals, arrays and objects
  (`JsonRoundTrip`);
- the sprite manifest loader: the manifest and animation-description records
  (`ManifestTypes`), reading the manifest, normalising a description
  (`ManifestLoader`), and cutting a sprite sheet into frames (`FrameBuilder`);
- the animation engine: frame stepping, looping, finishing, and the
  rectangles handed to the renderer (`AnimationEngine`);
- the stopwatch and interval timer (`Timers`);
- the pet base class: position, size, state, playing an animation, cutting
  a sheet into equal frames (`DesktopPets`);
- the cat: the idle/walk/click state machine, walk scheduling on the timer,
  the walk step, the per-tick update and animation loading (`CatPets`);
- the window hit test (`HitTest`).

Each source operation is a pure function over immutable records, and the
one loop-heavy operation (`buildFramesFromGrid`) is also a method with loop
invariants. Outside effects become parameters:

- the clock is a `now: real` argument;
- reading the manifest file is its text;
- `std::stod` is a partial function `conv` from the number's text to a real;
- texture loading is a function from path to an optional texture
  (a handle plus an optional size);
- the random walk interval and walk target are arguments, the target
  constrained to the range it is drawn from, 300..800;
- the hash map's iteration order is a sequence that lists every key once.

Floating-point seconds are `real`. `static_cast<int>` truncates toward zero
(`CInt.TruncToInt`), and C++ integer `/` on `int` is `CInt.CDiv`.

A JSON value that is not a number keeps `0.0` in its numeric slot and `false`
in its boolean slot (`src/tools/minijson.h:17-23`). This matters because the
loader reads the "defaults" block through those slots whatever the field's
kind (`Json.RawNumber`, `Json.RawBool`, used in `ManifestLoader.ReadDefaults`).

## Model

| member | source | states |
|---|---|---|
| CInt.TruncToInt | src/tools/minijson.h:42-45 | `static_cast<int>` drops the fraction toward zero: the result is the integer part from below for non-negative values, and from above for negative ones |
| CInt.CDiv | src/core/desktoppet.cpp:95 | C++ integer division: the magnitude is the floor of the magnitudes' quotient; the sign is negative exactly when the operands' signs differ |
| CInt.CDivNonNegative | src/tools/manifest_loader.cpp:135 | on a non-negative dividend and a positive divisor, C++ division is Euclidean division |
| CInt.TruncQuotient | src/core/desktoppet.cpp:40 | the truncated float quotient of whole numbers `a / b` is the largest `q` with `q * b <= a` |
| Json.Get | src/tools/minijson.h:33-37 | a field is found exactly when the receiver is an object holding that key, and it is that key's value |
| Json.GetBool | src/tools/minijson.h:38-41 | the stored bool for a Bool field, else the default |
| Json.GetInt | src/tools/minijson.h:42-45 | the truncated number for a Number field, else the default |
| Json.GetNumber | src/tools/minijson.h:46-49 | the stored number for a Number field, else the default |
| Json.GetString | src/tools/minijson.h:50-53 | the stored text for a String field, else the default |
| Json.GetArray | src/tools/minijson.h:54-57 | the elements exactly when the field is an Array, else nothing |
| Json.GetObject | src/tools/minijson.h:58-61 | the members exactly when the field is an Object, else nothing |
| Json.RawNumber | src/tools/minijson.h:18-20 | the numeric slot holds the number of a Number value and 0.0 for every other kind |
| Json.RawBool | src/tools/minijson.h:18-19 | the boolean slot is true exactly for the value `true` |
| JsonParser.SkipWS | src/tools/minijson.cpp:12-15 | stops at the end or at the first character that is not white space, never before `pos` |
| JsonParser.SkippedAreSpaces | src/tools/minijson.cpp:12-15 | every character skipped is white space |
| JsonParser.Match | src/tools/minijson.cpp:17-24 | succeeds exactly when the next non-blank character is `c`, and then consumes just that character |
| JsonParser.Peek | src/tools/minijson.cpp:26-29 | true exactly when the next non-blank character is `c` |
| JsonParser.AtEof | src/tools/minijson.cpp:31-36 | true exactly when everything from `pos` on is white space |
| JsonParser.ParseString | src/tools/minijson.cpp:39-45 | fails with the "Expected '\"'" message exactly when no quote follows the white space; a success ends just after a closing quote |
| JsonParser.StringBody | src/tools/minijson.cpp:47-79 | a success ends just after a closing quote and extends the text decoded so far; a failure is a bad escape or an unterminated string |
| JsonParser.Unescape | src/tools/minijson.cpp:55-73 | an escape letter among `b f n r t` decodes to a control character different from it; every other escape character stands for itself |
| JsonParser.EscapeDecoding | src/tools/minijson.cpp:55-73 | a two-character escape other than `\u` appends its decoded character (`\b \f \n \r \t`, anything else stands for itself) and the loop continues after it |
| JsonParser.UnicodeEscapePlaceholder | src/tools/minijson.cpp:65-71 | `\u` appends one `?` and skips up to four more characters |
| JsonParser.UnterminatedString | src/tools/minijson.cpp:78-79 | text with no quote and no backslash fails as "Unterminated string" |
| JsonParser.TrailingBackslash | src/tools/minijson.cpp:50-54 | a backslash as the last input character fails as "bad escape" |
| JsonParser.NumberEndParts | src/tools/minijson.cpp:84-95 | the scanner takes an optional sign, digits, an optional fraction, and an optional exponent with its own sign, each part greedily: the sign exactly when one is there, each digit run up to a non-digit or the end, the fraction exactly when `.` follows the digits, the exponent exactly when `e` or `E` follows |
| JsonParser.NumberEndIsLexeme | src/tools/minijson.cpp:84-95 | what the scanner takes is a lexeme of an independent number grammar, and no longer span from the same start is one: the scanner takes the longest lexeme |
| JsonParser.NumberEndLongest | src/tools/minijson.cpp:84-95 | any grammar lexeme starting where the scanner starts ends no later than the scanner does |
| JsonParser.ParseNumber | src/tools/minijson.cpp:82-107 | an empty lexeme fails as "expected number", a lexeme the conversion rejects fails as "Invalid number format", otherwise the converted lexeme is read |
| JsonParser.ParseNumberLexeme | src/tools/minijson.cpp:82-99 | a successful number parse consumes exactly a number lexeme |
| JsonParser.ParseValue | src/tools/minijson.cpp:178-217 | a success consumes at least one character; a failure carries one of the parser's messages |
| JsonParser.ParseScalar | src/tools/minijson.cpp:187-216 | a string, number or literal parse never yields a container |
| JsonParser.LiteralAtChars | src/tools/minijson.cpp:169-176 | the literal loop accepts exactly when the literal fits before the end of the text and every one of its characters matches, in order |
| JsonParser.MismatchedLiteral | src/tools/minijson.cpp:195-216 | a `t`, `f` or `n` that does not begin its exact literal is "Invalid value" |
| JsonParser.BlankInputFails | src/tools/minijson.cpp:179-183 | empty or blank text is "Unexpected end of input" |
| JsonParser.ParseArray | src/tools/minijson.cpp:111-135 | a success is an array ending after its closing bracket |
| JsonParser.ParseArrayAsWritten | src/tools/minijson.cpp:111-115 | the array parser with the opening test as written |
| JsonParser.ArrayRejectedAsWritten | src/tools/minijson.cpp:112 | as written, every array the value parser hands over is rejected, although its opening bracket is there |
| JsonParser.Elements | src/tools/minijson.cpp:123-133 | the element loop yields an array or a value/separator error |
| JsonParser.ElementsExtend | src/tools/minijson.cpp:124-126 | the element loop only appends to the elements it already has |
| JsonParser.ParseObject | src/tools/minijson.cpp:137-167 | a success is an object ending after its closing brace |
| JsonParser.ParseMember | src/tools/minijson.cpp:150-157 | a member (key, colon, value) consumes at least one character |
| JsonParser.Members | src/tools/minijson.cpp:149-166 | the member loop yields an object or a key/colon/value/separator error |
| JsonParser.MembersKeepFirst | src/tools/minijson.cpp:158 | a key already present keeps its first value: members parsed earlier survive unchanged |
| JsonParser.Parse | src/tools/minijson.cpp:219-233 | the text is one value followed only by white space; anything else after it is "Extra data after valid JSON"; a value error is passed on |
| JsonRoundTrip.EscapeChar | src/tools/minijson.cpp:56-64 | the reference escaping: a character spelled as itself is neither a quote nor a backslash; any other is spelled as a two-character escape other than `\u` that the string loop decodes back to it |
| JsonRoundTrip.StringBodyRoundTrip | src/tools/minijson.cpp:47-77 | the string loop decodes escaped text back to the text, ending after the closing quote |
| JsonRoundTrip.QuoteRoundTrip | src/tools/minijson.cpp:39-80 | parsing a quoted, escaped text gives back the text |
| JsonRoundTrip.ScalarRoundTrip | src/tools/minijson.cpp:187-214 | parsing the text of `null`, a bool or a string gives back that value, whatever follows |
| JsonRoundTrip.EmptyArrayStep | src/tools/minijson.cpp:111-122 | `[]` is the empty array |
| JsonRoundTrip.ValueNotAtClose | src/tools/minijson.cpp:119-125 | a value that parses does not start at `]` or `}`, so the empty-container test never cuts a non-empty one short |
| JsonRoundTrip.ElementsLaid | src/tools/minijson.cpp:123-133 | values each followed, after optional white space, by `,` or the closing `]` are collected in order, ending just after the bracket |
| JsonRoundTrip.ArrayLaid | src/tools/minijson.cpp:111-135 | an opening bracket, after optional white space, followed by any one or more values separated by `,` and closed by `]`, with white space allowed before each value, `,` and `]`, is read as the array of those values, in order, ending just after the bracket |
| JsonRoundTrip.OneElementArray | src/tools/minijson.cpp:111-135 | with the corrected opening test, the text `[1]` parses to the one-element array of the converted number |
| JsonRoundTrip.SpacedArray | src/tools/minijson.cpp:117-129 | the text `[ 1 ]` parses to the same one-element array: white space before the value and before `]` is skipped |
| JsonRoundTrip.FirstWinsSpec | src/tools/minijson.cpp:158 | the first-value-wins map has exactly the keys seen, each with the value of its first occurrence |
| JsonRoundTrip.EmptyObjectStep | src/tools/minijson.cpp:137-148 | `{}` is the empty object |
| JsonRoundTrip.MemberStep | src/tools/minijson.cpp:150-157 | a key, a colon after optional white space, and a value read as one member |
| JsonRoundTrip.MembersLaid | src/tools/minijson.cpp:149-166 | members each followed, after optional white space, by `,` or the closing `}` fill the map, the first value of a repeated key winning |
| JsonRoundTrip.ObjectLaid | src/tools/minijson.cpp:137-167 | an opening brace, after optional white space, followed by any one or more `"key": value` members separated by `,` and closed by `}`, with white space allowed around each key, `:`, value, `,` and `}`, is read as the object holding each key with its first value, ending just after the brace |
| JsonRoundTrip.SpacedObject | src/tools/minijson.cpp:149-161 | the text `{"a" : 1 }` parses to the object mapping `a` to the converted number: white space before `:` and before `}` is skipped |
| ManifestTypes.EngineDesc | src/core/animation.h:59-71 | the engine's description record equals the loader's except that its layout starts empty |
| ManifestTypes.LoaderDesc | src/tools/manifest_loader.h:15-26 | a fresh loader description has the given name, no path or rectangles, every count and size unset (below zero), loops, and lays out by "row" |
| ManifestTypes.FreshDefaults | src/tools/manifest_loader.h:28-34 | the fresh defaults are 48×48 frames at 8 fps, looping, with a layout |
| ManifestTypes.EmptyManifest | src/tools/manifest_loader.h:36-41 | a fresh manifest is version 1 with no base path, the fresh defaults and no animations |
| ManifestLoader.NormalizeBasePath | src/tools/manifest_loader.cpp:35-41 | a non-empty base path ends in a separator, gains at most a `/`, and one that already ends in `/` or `\` is kept |
| ManifestLoader.BasePathIdempotent | src/tools/manifest_loader.cpp:35-41 | normalising a base path twice is normalising it once |
| ManifestLoader.ReadDefaults | src/tools/manifest_loader.cpp:44-60 | a present size, rate or loop field is read through the raw number or bool slot, whatever its kind; layout only from a string; absent fields keep 48x48 at 8 fps, looping, "row" |
| ManifestLoader.ReadRect | src/tools/manifest_loader.cpp:85-90 | a frame rectangle's integer fields default to 0 and its duration to 100 ms |
| ManifestLoader.ReadRects | src/tools/manifest_loader.cpp:82-93 | never more rectangles than items (the items kept are stated by `ReadRectsItems`) |
| JsonParser.NumberEnd | src/tools/minijson.cpp:84-95 | the scanner never moves backwards nor past the end of the text |
| ManifestLoader.ReadRectsItems | src/tools/manifest_loader.cpp:83-91 | an array of objects gives one rectangle per item, in order; items that are not objects give none |
| ManifestLoader.ReadRectsAppend | src/tools/manifest_loader.cpp:83-91 | reading a concatenation of item arrays concatenates the readings |
| ManifestLoader.ReadDesc | src/tools/manifest_loader.cpp:69-93 | an entry takes its name from its key; unset numbers are -1, loop defaults to true, layout to "row"; rects are read only from an array; the movement flag is never read |
| ManifestLoader.ReadAnimations | src/tools/manifest_loader.cpp:63-96 | exactly the entries whose value is an object become descriptions, each under its own name |
| ManifestLoader.FromRoot | src/tools/manifest_loader.cpp:29-63 | the version is read, truncated, only from a number, otherwise 1; the base path is normalised; a "defaults" object is read field by field and an "animations" object entry by entry, and a missing block gives the fresh defaults or no animations |
| ManifestLoader.LoadManifest | src/tools/manifest_loader.cpp:15-100 | empty text and a parse that fails or is not an object each fail with their message and the default manifest; otherwise the manifest is the one read from the root, the load succeeds exactly when at least one animation was read, and every description carries its key as name |
| ManifestLoader.EntryLoads | src/tools/manifest_loader.cpp:63-95 | an "animations" entry whose value is an object makes the load succeed and is stored under its key as that entry read with its defaults |
| ManifestLoader.NormalizeDesc | src/tools/manifest_loader.cpp:102-108 | a rate or frame size at or below zero, and an empty layout, take the fallback; every other field is untouched |
| ManifestLoader.NormalizeDescIdempotent | src/tools/manifest_loader.cpp:102-108 | normalising twice is normalising once |
| ManifestLoader.NormalizedIsComplete | src/tools/manifest_loader.cpp:102-106 | against positive fallbacks with a layout, a normalised description has a positive rate and frame size and a layout |
| FrameBuilder.PerFrame | src/tools/manifest_loader.cpp:113 | the default frame time is the truncated quotient `1000 / fps`, with 8 fps standing in for a rate at or below zero |
| FrameBuilder.FramesFromRects | src/tools/manifest_loader.cpp:110-121 | one frame per listed rectangle, same rectangle, its own duration if positive, else the default frame time |
| FrameBuilder.RectDurationsPositive | src/tools/manifest_loader.cpp:113-117 | at rates up to 1000 fps every frame built from rectangles lasts a positive time |
| FrameBuilder.GridCount | src/tools/manifest_loader.cpp:128-137 | the requested count, else rows × cols for a grid, else as many frame widths as fit across the sheet |
| FrameBuilder.FramesFromGrid | src/tools/manifest_loader.cpp:123-161 | with the frame size guard the code evidently intends, a sheet whose frame width or height is not positive gives no frames; otherwise the sheet is sliced |
| FrameBuilder.FramesFromGridAsWritten | src/tools/manifest_loader.cpp:125 | the guard as written tests only the frame width |
| FrameBuilder.ZeroHeightSheetAsWritten | src/tools/manifest_loader.cpp:125 | as written, a 16-pixel-wide, zero-height frame size slices a 64-pixel sheet into four zero-height frames; the intended guard gives none |
| FrameBuilder.BuildFramesFromGrid | src/tools/manifest_loader.cpp:123-161 | the loops produce exactly the corrected builder's frames |
| FrameBuilder.SliceGrid | src/tools/manifest_loader.cpp:140-150 | the grid loop emits the first `min(count, rows × cols)` cells row by row |
| FrameBuilder.SliceRow | src/tools/manifest_loader.cpp:151-158 | the row loop emits `count` cells left to right along the top row |
| FrameBuilder.GridFramesWellFormed | src/tools/manifest_loader.cpp:140-158 | every frame is a cell of the declared, positive frame size with the default frame time; in a row, frame `i` starts at `i × width` |
| FrameBuilder.GridFrameCount | src/tools/manifest_loader.cpp:128-150 | a grid gives `min(count, rows × cols)` frames, cell `k` at row `k / cols`, column `k % cols`; a row gives `count` frames |
| AnimationEngine.Init | src/core/animation.cpp:11-28 | with a texture the animation plays the new frames from the start, unfinished; with a null texture nothing changes |
| AnimationEngine.Update | src/core/animation.cpp:30-52 | a finished or frameless animation is unchanged; below the frame's duration only the timer grows; at the duration it moves one frame on and restarts the timer, wrapping when looping and stopping finished on the last frame otherwise |
| AnimationEngine.Render | src/core/animation.cpp:54-91 | nothing is drawn without a renderer, texture or frames; otherwise the current frame's rectangle goes to the given box, or to its mirror image |
| AnimationEngine.FlipCoversSameSpan | src/core/animation.cpp:82-89 | the mirrored destination covers the same columns and source as the plain one |
| AnimationEngine.Reset | src/core/animation.cpp:93-98 | back to frame 0, timer 0, unfinished; the frames and looping flag stay |
| AnimationEngine.SetLooping | src/core/animation.cpp:100-102 | only the looping flag changes |
| AnimationEngine.FrameCount | src/core/animation.cpp:104-107 | the number of frames, zero exactly when there are none and above any valid frame index |
| AnimationEngine.Clean | src/core/animation.cpp:109-115 | the texture is released and the frames dropped; nothing else changes |
| AnimationEngine.CleanIdempotent | src/core/animation.cpp:109-115 | cleaning twice is cleaning once |
| AnimationEngine.NormalizeWithDefaults | src/core/animation.cpp:125-131 | a rate or frame size at or below zero takes the fallback; a layout other than "row" or "column" takes the fallback's; every other field is untouched |
| AnimationEngine.NormalizeWithDefaultsIdempotent | src/core/animation.cpp:125-131 | normalising twice is normalising once |
| AnimationEngine.Run | src/core/animation.cpp:30-52 | repeated updates keep the frames and looping flag and a valid frame index |
| AnimationEngine.LoopingAdvances | src/core/animation.cpp:38-41 | fed at least a frame's duration per update, a looping animation steps one frame per update |
| AnimationEngine.LoopingCycles | src/core/animation.cpp:42-44 | fed that fast, a looping animation wraps to its first frame and returns to where it started after one update per frame |
| AnimationEngine.OneShotFinishes | src/core/animation.cpp:45-47 | fed that fast, a one-shot animation reaches its last frame and stays there, finished |
| AnimationEngine.FinishedStays | src/core/animation.cpp:32-34 | a finished animation no longer changes |
| AnimationEngine.RunSplit | src/core/animation.cpp:30-52 | `i + j` updates are `i` updates followed by `j` more |
| Timers.Start | src/tools/Timer.cpp:4-14 | the timer runs unpaused, reads zero now, and the interval count restarts |
| Timers.Stop | src/tools/Timer.cpp:16-23 | the timer stops, reads zero at any time, and keeps its interval setting |
| Timers.Reset | src/tools/Timer.cpp:25-37 | the reading restarts from zero now, running or not |
| Timers.Pause | src/tools/Timer.cpp:39-46 | only a running, unpaused timer pauses; the reading at the moment of pausing is kept |
| Timers.Resume | src/tools/Timer.cpp:48-57 | only a paused timer resumes; the reading at the moment of resuming is kept |
| Timers.Elapsed | src/tools/Timer.cpp:65-76 | a stopped or paused timer reads its accumulated time; a running one reads that plus the time since it last started |
| Timers.ElapsedFrozen | src/tools/Timer.cpp:65-72 | a stopped or paused timer's reading does not move with the clock |
| Timers.ElapsedAdvances | src/tools/Timer.cpp:73-75 | a running timer's reading advances exactly with the clock |
| Timers.PauseResume | src/tools/Timer.cpp:39-57 | a pause and a later resume lose exactly the paused stretch |
| Timers.Tick | src/tools/Timer.cpp:78-87 | the time since the last tick, never negative; zero and no change when stopped or paused |
| Timers.Lap | src/tools/Timer.cpp:89-95 | the time since the last lap, never negative, whatever the timer's state |
| Timers.SetInterval | src/tools/Timer.cpp:97-103 | new length and mode, counted from zero now; running state untouched |
| Timers.ClearInterval | src/tools/Timer.cpp:105-109 | the interval length and count become zero |
| Timers.ClearedNeverFires | src/tools/Timer.cpp:105-116 | a cleared interval never fires |
| Timers.Drain | src/tools/Timer.cpp:124-133 | the repeating loop takes away a whole number of intervals, never adds, leaves less than one interval (within the tolerance), and takes nothing exactly when less than one interval is there |
| Timers.Update | src/tools/Timer.cpp:112-135 | a stopped, paused or intervalless timer never fires and is unchanged; otherwise the non-negative part of `dt` is added and the timer fires exactly when the count reaches the interval within 1e-7; a silent update keeps the sum, a repeating timer that fires keeps what the loop leaves, a one-shot timer that fires stops at zero; only the running flag and count change |
| Timers.FeedingAccumulates | src/tools/Timer.cpp:118-124 | a silent update carries its time over: two updates whose sum reaches the interval make the second one fire |
| Timers.UpdateAll | src/tools/Timer.cpp:112-116 | a stopped timer stays stopped through any number of updates |
| Timers.SilentWhileStopped | src/tools/Timer.cpp:114-116 | a stopped timer never fires, however long it is fed |
| Timers.OneShotFiresOnce | src/tools/Timer.cpp:127-131 | a one-shot timer that fired never fires again |
| DesktopPets.NewPet | src/core/desktoppet.cpp:3-13 | a new pet is idle at the origin, 0×0, view scale 1, without renderer or animations |
| DesktopPets.GetPosition | src/core/desktoppet.cpp:19-23 | the position read is the pet's column and row |
| DesktopPets.ScaledWidth | src/core/desktoppet.h:39 | the scaled width is unchanged at scale 1, zero at scale 0, and a non-negative width is never shrunk by a scale of at least 1 |
| DesktopPets.ScaledHeight | src/core/desktoppet.h:40 | the scaled height is unchanged at scale 1, zero at scale 0, and a non-negative height is never shrunk by a scale of at least 1 |
| DesktopPets.SetPosition | src/core/desktoppet.cpp:25-29 | only the position changes, and it reads back as set |
| DesktopPets.PositionRoundTrip | src/core/desktoppet.cpp:19-29 | setting the position and reading it gives what was set; setting it to what it reads changes nothing |
| DesktopPets.SetState | src/core/desktoppet.cpp:49-52 | only the state changes |
| DesktopPets.SetWidthAndHeight | src/core/desktoppet.cpp:31-47 | the width is the largest whole width that fits the frames across the texture, the height is the texture's; nothing changes when the size query fails |
| DesktopPets.ChosenAnimation | src/core/desktoppet.cpp:54-70 | the requested state's animation if the pet has one, else the idle one, else none |
| DesktopPets.PlayAnimation | src/core/desktoppet.cpp:54-70 | nothing is drawn exactly when there is no renderer, no animation to choose, or the chosen one has no texture or frames; otherwise its current frame goes, unmirrored, to the pet's position and size |
| DesktopPets.GetFrames | src/core/desktoppet.cpp:72-110 | no frames without a texture or its size; otherwise `frameCount` frames of 100 ms, frame `i` the cell at `i ×` the truncated width share, as wide as that share and as tall as the sheet |
| DesktopPets.GetFramesTileSheet | src/core/desktoppet.cpp:91-104 | for a positive count the frames lie side by side within the sheet, each spanning its full height, and the share is the largest width `w` with `w × count` at most the sheet width |
| CatPets.LowerStr | src/pet/catpet.cpp:9 | the name lower-cased character by character in the "C" locale: same length, each character `tolower` of the original |
| CatPets.MapNameToState | src/pet/catpet.cpp:8-15 | "walk" and "click" in any letter case name their states; every other name is idle |
| CatPets.MapNameIgnoresCase | src/pet/catpet.cpp:9 | names that differ only in letter case map to the same state |
| CatPets.SetState | src/pet/catpet.cpp:232-239 | the state changes and its own animation, if any, restarts; every other animation and field is untouched |
| CatPets.SetStateIdempotent | src/pet/catpet.cpp:232-239 | entering a state twice is entering it once |
| CatPets.HandleEventClick | src/pet/catpet.cpp:241-248 | a left-button press enters the click state; any other event changes nothing |
| CatPets.SetWalkAction | src/pet/catpet.cpp:251-264 | the walk timer is fed; when it fires and the pet is not walking, the timer is re-armed to repeat with the drawn interval, the drawn target is taken and the pet walks; otherwise only the timer changes |
| CatPets.WalkAround | src/pet/catpet.cpp:266-303 | at the target the pet idles; otherwise it faces the target and steps `stride` toward it (one pixel when the stride truncates to 0); a step that reaches or passes the target lands exactly on it and the pet goes idle, restarting the idle animation; otherwise only the column and facing change |
| CatPets.AtTargetStaysIdle | src/pet/catpet.cpp:268-272 | a pet already at its target stays there and idles, whatever strides follow |
| CatPets.WalkArrives | src/pet/catpet.cpp:266-303 | repeated walk steps stay between the start and the target and reach it, idle, within as many steps as there were pixels to go |
| CatPets.Advance | src/pet/catpet.cpp:77-83 | the state's animation is updated once; a finished one-shot animation sends the pet back to idle and restarts the idle animation; every other animation, and every other field, is unchanged |
| CatPets.MaybeWalk | src/pet/catpet.cpp:72-76 | a pet whose current state is a moving one takes a walk step; any other pet is left as it is |
| CatPets.Moving | src/pet/catpet.cpp:72 | a pet moves only in a state flagged as moving, so a pet with no flagged state never moves |
| CatPets.Millis | src/core/animation.cpp:37 | the tick in milliseconds is `dt × 1000` truncated toward zero |
| CatPets.Animate | src/pet/catpet.cpp:66-92 | the animation looked up before the walk step is the one updated; without one, the idle animation is updated; the table's keys and validity are kept |
| CatPets.Update | src/pet/catpet.cpp:62-93 | one tick keeps every animation's frame index valid and the table's keys; a pet whose states are all still does not move |
| CatPets.Clean | src/pet/catpet.cpp:134-145 | every animation is dropped, after which nothing is drawn; nothing else changes |
| CatPets.FrameCountFallback | src/pet/catpet.cpp:187-193 | an unset count becomes rows × cols for a grid, else the number of whole frame widths across the texture |
| CatPets.Prepare | src/pet/catpet.cpp:166-205 | an entry whose texture does not load is skipped; otherwise the normalised entry, with its frame count filled in from the sheet width, is cut from its rectangles if it has any and from the grid otherwise, and it is kept exactly when that gives frames, with the texture, those frames and that description |
| CatPets.FullPath | src/pet/catpet.cpp:172 | the image path is the base path followed by the entry's path |
| CatPets.LoadOne | src/pet/catpet.cpp:166-224 | a kept entry replaces the animation of the state its name maps to, records its movement flag; the first kept entry sets the pet's size (the truncated share of the texture width per frame and the texture height, unchanged when the size query fails) and later ones keep it; no other field changes |
| CatPets.LoadEach | src/pet/catpet.cpp:167-224 | the loop over the manifest's entries installs an animation for the state of every entry it can prepare, only adds or replaces animations, never moves the pet or changes its state, and keeps every frame index valid |
| CatPets.LoadEachOnlyKept | src/pet/catpet.cpp:167-224 | every animation after the loop was there before or comes from a prepared entry whose name maps to its state |
| CatPets.LoadAnimations | src/pet/catpet.cpp:147-230 | fails without a renderer or a loaded manifest; otherwise every entry that can be prepared gets its state's animation, the load succeeds exactly when the pet ends with an animation, and existing states are kept |
| CatPets.LoadSucceedsIffSomeKept | src/pet/catpet.cpp:147-230 | a pet with a renderer and no animations loads successfully from a loaded manifest exactly when some entry can be prepared |
| CatPets.NothingLoaded | src/pet/catpet.cpp:176-206 | when no entry can be loaded the pet is unchanged and the result says whether it already had animations |
| CatPets.NothingEach | src/pet/catpet.cpp:176-207 | when every entry is skipped the loop leaves the pet unchanged |
| CatPets.LoadEachKeepsStill | src/pet/catpet.cpp:219-223 | entries whose movement flag is off never make a state a moving one |
| CatPets.LoadedPetNeverMoves | src/pet/catpet.cpp:223 | since the loader never sets a movement flag, a pet loaded from a manifest has no moving state |
| HitTest.PetHitTest | src/tools/hittest.cpp:5-27 | a point is handled normally exactly when it is on or inside the pet's box scaled by the view scale |
| HitTest.GetHitTestRegion | src/tools/hittest.cpp:29-33 | the corner is kept and the size scaled; a scale of at least 1 never shrinks a non-negative size |
| HitTest.HitTestMatchesRegion | src/tools/hittest.cpp:13-26 | the callback's answer agrees with the region scaled by the view scale on both axes |
| HitTest.DefaultScaleIsIdentity | src/tools/hittest.h:14 | the default scales leave a region unchanged |
| HitTest.ScalesCompose | src/tools/hittest.cpp:29-31 | scaling twice is scaling once by the products |
| HitTest.LargerScaleCatchesMore | src/tools/hittest.cpp:13-21 | at a larger view scale a pet of non-negative size catches every point it caught before |
| HitTest.ZeroScaleCatchesCorner | src/tools/hittest.cpp:13-21 | at view scale 0 only the pet's corner is caught |

## Left out

- File reading, SDL rendering, window creation, texture creation and destruction, and logging: they are outside effects. Texture loading is an argument, and a draw is returned as a value.
- `CatPet::init`, `CatPet::render`, the game loop and `main`: they do window and renderer work. `render`'s mirroring through a negative render scale is SDL state. The engine's own mirrored destination is modelled in `AnimationEngine.Render`.
- `Timer::getElapsedTime`, the argument-less `Timer::update()` and `Timer::now`: they read the system clock. The model passes the clock reading as `now`.
- Floating-point rounding: seconds and numbers are exact reals. The 1e-7 tolerance of the interval loop is kept.
- Floating-point absorption in the interval loop: in `float`, `intervalAccumSec_ -= intervalSec_` (src/tools/Timer.cpp:125) leaves a count that is huge against the interval unchanged, so the loop at src/tools/Timer.cpp:124-133 can spin forever on a repeating timer. Over exact reals every turn takes one interval away, and `Timers.Drain` terminates by that measure only.
- Bytes versus characters: the source's strings are byte sequences and the model's are character sequences. A `\u` escape skips up to four bytes in the source (src/tools/minijson.cpp:65-71) and up to four characters in the model, which differ on non-ASCII text.
- 32-bit `int` overflow (undefined behaviour in C++) is not modelled; integers are unbounded.
- `tools::Random`: the walk interval and the walk target are arguments, and the target is required to lie in 300..800.
- Non-ASCII characters in names are left alone by the case folding, as `tolower` does in the "C" locale.
- `Animation`'s constructor leaves its fields uninitialised; the model starts from `AnimationEngine.Blank`.
- `loadManifestFromFile` in src/core/animation.cpp:120-122 does not compile and is not modelled.
- `normalizeWithDefaults` falls off its end without returning its `bool`; the model returns only the normalised description.
- The loader declares `normalizeDesc` but defines `NormalizeDesc`, and the cat calls `normalizeDesc`. The model takes the defined function for the call.
- `loadTexture` in the loader is a texture-loading effect. It is covered by the texture-loading argument.
- The cat's fields `walkTimer_`, `moveSpeed_`, `target_positionX_`, `flipX_`, `movementStates_` and the walk-interval bounds do not appear in the headers. The model gives the pet record a walk timer, a target column, a facing flag and movement flags. The walk stride, the truncation of speed × `dt`, is an argument.
- CatPets.Update: it states that the update preserves its invariants, and it does not restate each branch; the branches are stated by `CatPets.Animate`, `CatPets.Advance` and `CatPets.SetWalkAction`.
- JsonRoundTrip.ElementsLaid: arrays and objects are read back from text that is already laid out as values the parser reads. No serializer is modelled, because the source has none. A round trip for nested containers is left out for that reason.
- `std::stod`'s conversion is the argument `conv`. Its accepted prefixes and its rounding are not modelled.

## Findings

| source | as written | input that shows it | evidently intended | confidence | as-written member | corrected member |
|---|---|---|---|---|---|---|
| src/tools/minijson.cpp:112 | `lx.match('[]')` passes a two-character literal. Its value is implementation-defined; GCC and Clang convert it to its low byte, `']'`, so the test never sees the opening bracket | the text `[1]`: the value parser dispatches on `[`, and the array parser then fails with "Expected '[' at beginning of array" | `lx.match('[')` | not executed | JsonParser.ArrayRejectedAsWritten | JsonRoundTrip.ArrayLaid |
| src/tools/manifest_loader.cpp:125 | `d.frameWidth <= 0 \|\| d.frameWidth <= 0` tests the width twice | frame size 16×0 on a 64-pixel sheet: four frames of height 0 | `d.frameWidth <= 0 \|\| d.frameHeight <= 0` | not executed | FrameBuilder.ZeroHeightSheetAsWritten | FrameBuilder.FramesFromGrid |

The model's parser uses the corrected opening bracket in `JsonParser.ParseArray`. The cat's loader uses the corrected guard in `FrameBuilder.FramesFromGrid`.

=== FILE: animation_engine.dfy ===
/** The animation playback engine: a small state machine over a frame
    index, a millisecond timer, a looping flag and a finished flag. The
    texture is an opaque handle, with `None` for a null pointer. */
module AnimationEngine {
  import opened Wrappers
  import opened ManifestTypes

  datatype Animation = Animation(
    texture: Option<nat>,
    frames: seq<Frame>,
    current: int,
    timer: int,
    looping: bool,
    finished: bool)

  /** An animation before `Init`: no texture and no frames. (The class's
      constructor leaves its fields uninitialised; this model starts them
      at zero.) */
  const Blank := Animation(None, [], 0, 0, true, false)

  /** The frame index points into a non-empty frame list. */
  predicate IndexValid(a: Animation)
  {
    a.frames != [] ==> 0 <= a.current < |a.frames|
  }

  /** init: with a texture, plays `frames` from the start, looping as
      asked; with a null texture nothing changes. */
  function Init(a: Animation, texture: Option<nat>, frames: seq<Frame>, isLoop: bool := true): (r: Animation)
    ensures texture.None? ==> r == a
    ensures texture.Some? ==> r.texture == texture && r.frames == frames && r.looping == isLoop
    ensures texture.Some? ==> r.current == 0 && r.timer == 0 && !r.finished
    ensures IndexValid(a) ==> IndexValid(r)
  {
    if texture.None? then a
    else Animation(texture, frames, 0, 0, isLoop, false)
  }

  /** update with the elapsed time already truncated to whole milliseconds:
      nothing happens to a finished or frameless animation. Otherwise the
      time is added to the timer, and once the timer reaches the current
      frame's duration the animation moves on by exactly one frame and the
      timer restarts at 0 (time beyond the duration is dropped). Past the
      last frame a looping animation wraps to the first; any other stops on
      the last frame, finished. */
  function Update(a: Animation, ms: int): (r: Animation)
    requires a.finished || IndexValid(a)
    ensures a.finished || a.frames == [] ==> r == a
    ensures r.frames == a.frames && r.texture == a.texture && r.looping == a.looping
    ensures !a.finished && a.frames != [] && a.timer + ms < a.frames[a.current].duration ==>
              r == a.(timer := a.timer + ms)
    ensures !a.finished && a.frames != [] && a.timer + ms >= a.frames[a.current].duration ==>
              r.timer == 0 &&
              (a.current < |a.frames| - 1 ==> r.current == a.current + 1 && !r.finished) &&
              (a.current == |a.frames| - 1 && a.looping ==> r.current == 0 && !r.finished) &&
              (a.current == |a.frames| - 1 && !a.looping ==> r.current == a.current && r.finished)
    ensures IndexValid(a) ==> IndexValid(r)
    ensures a.looping && !a.finished ==> !r.finished
  {
    if a.finished || a.frames == [] then a
    else
      var t := a.timer + ms;
      if t < a.frames[a.current].duration then a.(timer := t)
      else if a.current + 1 < |a.frames| then a.(current := a.current + 1, timer := 0)
      else if a.looping then a.(current := 0, timer := 0)
      else a.(current := |a.frames| - 1, timer := 0, finished := true)
  }

  /** One draw call: the source rectangle and the destination rectangle. */
  datatype Draw = Draw(src: Rect, dest: Rect)

  /** render, down to the rectangles it hands to the renderer: nothing
      without a renderer, a texture or frames; otherwise the current
      frame's rectangle onto `(x, y, w, h)`, or, mirrored, onto
      `(x + w, y, -w, h)`. */
  function Render(a: Animation, hasRenderer: bool, x: int, y: int, w: int, h: int, flip: bool := false): (r: Option<Draw>)
    requires IndexValid(a)
    ensures r.None? <==> !hasRenderer || a.texture.None? || a.frames == []
    ensures r.Some? ==> r.value.src == a.frames[a.current].src
    ensures r.Some? && !flip ==> r.value.dest == Rect(x, y, w, h)
    ensures r.Some? && flip ==> r.value.dest == Rect(x + w, y, -w, h)
  {
    if !hasRenderer || a.texture.None? || a.frames == [] then None
    else
      var dest := Rect(x, y, w, h);
      Some(Draw(a.frames[a.current].src, if flip then dest.(x := x + w, w := -w) else dest))
  }

  /** resetAnimation: back to the first frame, timer 0, not finished; the
      frames and looping flag are kept. */
  function Reset(a: Animation): (r: Animation)
    ensures r.current == 0 && r.timer == 0 && !r.finished
    ensures r.frames == a.frames && r.looping == a.looping && r.texture == a.texture
    ensures IndexValid(r)
  {
    a.(current := 0, timer := 0, finished := false)
  }

  /** setLooping: only the looping flag changes. */
  function SetLooping(a: Animation, isLoop: bool): (r: Animation)
    ensures r.looping == isLoop
    ensures r.(looping := a.looping) == a
  {
    a.(looping := isLoop)
  }

  /** getFrameCount. */
  function FrameCount(a: Animation): (n: nat)
    ensures n == |a.frames|
    ensures n == 0 <==> a.frames == []
    ensures IndexValid(a) && n > 0 ==> a.current < n
  {
    |a.frames|
  }

  /** clean: the texture is released and the frames dropped. */
  function Clean(a: Animation): (r: Animation)
    ensures r.texture.None? && r.frames == []
    ensures FrameCount(r) == 0 && IndexValid(r)
    ensures r.current == a.current && r.timer == a.timer && r.looping == a.looping && r.finished == a.finished
  {
    a.(texture := None, frames := [])
  }

  /** normalizeWithDefaults: like the loader's normaliser for the rate and
      frame size, but any layout other than "row" or "column" (including
      "grid" and the empty layout) takes the fallback. */
  function NormalizeWithDefaults(d: AnimationDesc, def: Defaults): (r: AnimationDesc)
    ensures r.fps == if d.fps > 0 then d.fps else def.fps
    ensures r.frameWidth == if d.frameWidth > 0 then d.frameWidth else def.frameWidth
    ensures r.frameHeight == if d.frameHeight > 0 then d.frameHeight else def.frameHeight
    ensures r.layout == if d.layout in {"row", "column"} then d.layout else def.layout
    ensures r == d.(fps := r.fps, frameWidth := r.frameWidth, frameHeight := r.frameHeight, layout := r.layout)
  {
    d.(fps := if d.fps <= 0 then def.fps else d.fps,
       frameWidth := if d.frameWidth <= 0 then def.frameWidth else d.frameWidth,
       frameHeight := if d.frameHeight <= 0 then def.frameHeight else d.frameHeight,
       layout := if d.layout != "row" && d.layout != "column" then def.layout else d.layout)
  }

  // ----------------------------------------------------------- properties

  /** `k` updates of `ms` milliseconds each. */
  function Run(a: Animation, ms: int, k: nat): (r: Animation)
    requires a.finished || IndexValid(a)
    ensures r.frames == a.frames && r.looping == a.looping
    ensures r.finished || IndexValid(r)
    ensures IndexValid(a) ==> IndexValid(r)
    decreases k
  {
    if k == 0 then a else Run(Update(a, ms), ms, k - 1)
  }

  /** No frame lasts longer than `ms`. */
  predicate FastEnough(a: Animation, ms: int)
  {
    forall i | 0 <= i < |a.frames| :: a.frames[i].duration <= ms
  }

  /** A looping animation fed at least one frame's duration per update
      steps forward one frame per update up to its last frame. */
  lemma {:induction false} LoopingAdvances(a: Animation, ms: int, k: nat)
    requires a.looping && !a.finished && a.frames != [] && IndexValid(a)
    requires a.timer == 0 && FastEnough(a, ms)
    requires a.current + k < |a.frames|
    ensures Run(a, ms, k) == a.(current := a.current + k)
    decreases k
  {
    if k > 0 {
      var b := Update(a, ms);
      assert b == a.(current := a.current + 1);
      LoopingAdvances(b, ms, k - 1);
    }
  }

  /** Updates compose: `i + j` updates are `i` updates, then `j` more. */
  lemma {:induction false} RunSplit(a: Animation, ms: int, i: nat, j: nat)
    requires a.finished || IndexValid(a)
    ensures Run(a, ms, i + j) == Run(Run(a, ms, i), ms, j)
    decreases i
  {
    if i > 0 {
      RunSplit(Update(a, ms), ms, i - 1, j);
    }
  }

  /** A looping animation fed at least one frame's duration per update
      wraps from its last frame to its first, and after one update per
      frame it is exactly where it started: it cycles forever and never
      finishes. */
  lemma LoopingCycles(a: Animation, ms: int)
    requires a.looping && !a.finished && a.frames != [] && IndexValid(a)
    requires a.timer == 0 && FastEnough(a, ms)
    ensures Run(a, ms, |a.frames| - a.current) == a.(current := 0)
    ensures Run(a, ms, |a.frames|) == a
  {
    var n, c := |a.frames|, a.current;
    var last := a.(current := n - 1);
    LoopingAdvances(a, ms, n - 1 - c);
    RunSplit(a, ms, n - 1 - c, 1);
    assert Run(last, ms, 1) == Update(last, ms);
    var first := a.(current := 0);
    if c > 0 {
      LoopingAdvances(first, ms, c);
    }
    RunSplit(a, ms, n - c, c);
  }

  /** A one-shot animation fed at least one frame's duration per update
      steps forward one frame per update until it reaches its last frame,
      then stays there, finished. */
  lemma {:induction false} OneShotFinishes(a: Animation, ms: int, k: nat)
    requires !a.looping && !a.finished && a.frames != [] && IndexValid(a)
    requires a.timer == 0 && FastEnough(a, ms)
    ensures a.current + k < |a.frames| ==>
              Run(a, ms, k).current == a.current + k && !Run(a, ms, k).finished
    ensures a.current + k >= |a.frames| ==>
              Run(a, ms, k).current == |a.frames| - 1 && Run(a, ms, k).finished
    decreases k
  {
    if k > 0 {
      var b := Update(a, ms);
      if b.finished {
        FinishedStays(b, ms, k - 1);
      } else {
        OneShotFinishes(b, ms, k - 1);
      }
    }
  }

  /** A finished animation no longer changes. */
  lemma {:induction false} FinishedStays(a: Animation, ms: int, k: nat)
    requires a.finished
    ensures Run(a, ms, k) == a
    decreases k
  {
    if k > 0 {
      FinishedStays(Update(a, ms), ms, k - 1);
    }
  }

  /** The mirrored destination covers the same columns as the plain one. */
  lemma FlipCoversSameSpan(a: Animation, hasRenderer: bool, x: int, y: int, w: int, h: int)
    requires IndexValid(a)
    ensures var plain := Render(a, hasRenderer, x, y, w, h);
            var mirrored := Render(a, hasRenderer, x, y, w, h, true);
            (plain.Some? <==> mirrored.Some?) &&
            (plain.Some? ==> Span(plain.value.dest) == Span(mirrored.value.dest) &&
                             plain.value.src == mirrored.value.src)
  {
  }

  /** The columns from the left edge to the right edge of a rectangle whose
      width may be negative. */
  function Span(d: Rect): (int, int)
  {
    if d.w >= 0 then (d.x, d.x + d.w) else (d.x + d.w, d.x)
  }

  /** Cleaning twice is cleaning once. */
  lemma CleanIdempotent(a: Animation)
    ensures Clean(Clean(a)) == Clean(a)
  {
  }

  /** Normalising twice is normalising once. */
  lemma NormalizeWithDefaultsIdempotent(d: AnimationDesc, def: Defaults)
    ensures NormalizeWithDefaults(NormalizeWithDefaults(d, def), def) == NormalizeWithDefaults(d, def)
  {
  }
}

=== FILE: cat_pet.dfy ===
/** The cat pet's behaviour: the idle/walk/click state machine, walk
    scheduling on a repeating timer, the walk step toward a target column,
    the per-tick update, and loading its animations from a manifest.
    Random draws are parameters constrained to the range they are drawn
    from; the frame time reaches the model as seconds (`dt`) together with
    the walk stride it yields. */
module CatPets {
  import opened Wrappers
  import opened ManifestTypes
  import opened AnimationEngine
  import opened DesktopPets
  import Timers
  import CInt
  import ManifestLoader
  import FrameBuilder
  import JsonParser

  // ------------------------------------------------------- state names

  /** C `tolower` in the "C" locale. */
  function Lower(c: char): char
  {
    if 'A' <= c <= 'Z' then (c as int + 32) as char else c
  }

  function LowerStr(s: string): (r: string)
    ensures |r| == |s|
    ensures forall i | 0 <= i < |s| :: r[i] == Lower(s[i])
  {
    if s == [] then [] else [Lower(s[0])] + LowerStr(s[1..])
  }

  /** mapNameToState: "idle", "walk" and "click" in any letter case name
      their states; every other name falls back to idle. */
  function MapNameToState(name: string): (r: PetState)
    ensures r == Walk <==> LowerStr(name) == "walk"
    ensures r == Click <==> LowerStr(name) == "click"
    ensures r == Idle <==> LowerStr(name) != "walk" && LowerStr(name) != "click"
  {
    var n := LowerStr(name);
    if n == "idle" then Idle
    else if n == "walk" then Walk
    else if n == "click" then Click
    else Idle
  }

  // ------------------------------------------------------- transitions

  /** setState: enters `s` and restarts `s`'s own animation, if it has one;
      every other animation is left as it was. */
  function SetState(p: Pet, s: PetState): (r: Pet)
    ensures r.state == s
    ensures r.animations.Keys == p.animations.Keys
    ensures s in p.animations ==> r.animations[s] == Reset(p.animations[s])
    ensures forall t | t in p.animations && t != s :: r.animations[t] == p.animations[t]
    ensures r.(state := p.state, animations := p.animations) == p
    ensures AnimationsValid(p) ==> AnimationsValid(r)
  {
    var q := DesktopPets.SetState(p, s);
    if s in p.animations then q.(animations := p.animations[s := Reset(p.animations[s])])
    else q
  }

  /** The input events the pet reacts to. */
  datatype Event = MouseButtonDown(button: int) | OtherEvent

  const ButtonLeft := 1

  /** handleEventClick: a left-button press switches to CLICK (restarting
      its animation); every other event changes nothing. */
  function HandleEventClick(p: Pet, e: Event): (r: Pet)
    ensures e == MouseButtonDown(ButtonLeft) ==> r == SetState(p, Click) && r.state == Click
    ensures e != MouseButtonDown(ButtonLeft) ==> r == p
  {
    match e
    case MouseButtonDown(b) => if b == ButtonLeft then SetState(p, Click) else p
    case OtherEvent => p
  }

  /** The range a walk target column is drawn from. */
  const TargetMin := 300
  const TargetMax := 800

  /** setWalkAction: feeds `dt` to the walk timer. When it fires and the pet
      is already walking, nothing else changes; when it fires otherwise,
      the timer is re-armed as a repeating timer with the freshly drawn
      `interval`, the drawn `target` becomes the walk target and the pet
      starts walking. */
  function SetWalkAction(p: Pet, dt: real, now: real, interval: real, target: int): (r: Pet)
    requires TargetMin <= target <= TargetMax
    ensures var (t, fired) := Timers.Update(p.walkTimer, dt);
            (!fired || p.state == Walk ==> r == p.(walkTimer := t)) &&
            (fired && p.state != Walk ==>
               r.state == Walk && r.targetX == target && r.posX == p.posX &&
               r.walkTimer == Timers.SetInterval(t, interval, true, now) &&
               r == SetState(p.(walkTimer := r.walkTimer, targetX := target), Walk))
    ensures TargetMin <= p.targetX <= TargetMax ==> TargetMin <= r.targetX <= TargetMax
    ensures r.animations.Keys == p.animations.Keys
    ensures AnimationsValid(p) ==> AnimationsValid(r)
  {
    var (t, fired) := Timers.Update(p.walkTimer, dt);
    var q := p.(walkTimer := t);
    if !fired || p.state == Walk then q
    else SetState(q.(walkTimer := Timers.SetInterval(t, interval, true, now), targetX := target), Walk)
  }

  function Abs(x: int): nat
  {
    if x < 0 then -x else x
  }

  /** The distance left to walk. */
  function Distance(p: Pet): nat
  {
    Abs(p.targetX - p.posX)
  }

  /** walkAround, with `stride` the truncated product of the walking speed
      and the frame time (negative only for a negative frame time). At the
      target the pet goes idle where it stands. Otherwise it faces the
      target and steps `stride` toward it (at least one pixel); a step that
      would reach or pass the target lands exactly on it and the pet goes
      idle. */
  function WalkAround(p: Pet, stride: int): (r: Pet)
    ensures p.posX == p.targetX ==> r == SetState(p, Idle)
    ensures p.posX != p.targetX ==> r.flipX == (p.targetX < p.posX)
    ensures r.targetX == p.targetX && r.posY == p.posY && r.movement == p.movement
    ensures r.animations.Keys == p.animations.Keys
    ensures r.posX == p.targetX ==> r.state == Idle
    ensures r.posX != p.targetX ==> r.state == p.state && r.animations == p.animations
    ensures stride >= 0 ==> Distance(r) < Distance(p) || Distance(p) == 0
    ensures stride >= 0 && p.posX < p.targetX ==> p.posX < r.posX <= p.targetX
    ensures stride >= 0 && p.posX > p.targetX ==> p.targetX <= r.posX < p.posX
    ensures p.posX < p.targetX ==>
              var n := p.posX + (if stride == 0 then 1 else stride);
              r == if n >= p.targetX then SetState(p.(flipX := false, posX := p.targetX), Idle)
                   else p.(flipX := false, posX := n)
    ensures p.posX > p.targetX ==>
              var n := p.posX - (if stride == 0 then 1 else stride);
              r == if n <= p.targetX then SetState(p.(flipX := true, posX := p.targetX), Idle)
                   else p.(flipX := true, posX := n)
    ensures AnimationsValid(p) ==> AnimationsValid(r)
  {
    var dx := p.targetX - p.posX;
    if dx == 0 then SetState(p, Idle)
    else
      var toRight := dx > 0;
      var q := p.(flipX := !toRight);
      var step := if toRight then stride else -stride;
      var step' := if step == 0 then (if toRight then 1 else -1) else step;
      var newX := p.posX + step';
      if (toRight && newX >= p.targetX) || (!toRight && newX <= p.targetX) then
        SetState(q.(posX := p.targetX), Idle)
      else q.(posX := newX)
  }

  /** getMovementState: whether the current state's animation moves the pet
      (no flag recorded means no). */
  predicate Moving(p: Pet)
    ensures Moving(p) ==> p.state in p.movement
    ensures NoMovement(p) ==> !Moving(p)
  {
    p.state in p.movement && p.movement[p.state]
  }

  /** No state is flagged as a movement. */
  predicate NoMovement(p: Pet)
  {
    forall s | s in p.movement :: !p.movement[s]
  }

  /** The frame time in whole milliseconds, as the animation update takes it. */
  function Millis(dt: real): (r: int)
    ensures dt >= 0.0 ==> 0 <= r && r as real <= dt * 1000.0 < r as real + 1.0
    ensures dt < 0.0 ==> r <= 0 && r as real - 1.0 < dt * 1000.0 <= r as real
  {
    CInt.TruncToInt(dt * 1000.0)
  }

  /** One update of the animation of state `s`; a non-looping animation
      that has finished sends the pet back to idle, which restarts the idle
      animation. No other animation changes. */
  function Advance(w: Pet, s: PetState, ms: int): (r: Pet)
    requires AnimationsValid(w) && s in w.animations
    ensures AnimationsValid(r)
    ensures r.animations.Keys == w.animations.Keys
    ensures r.posX == w.posX && r.posY == w.posY && r.movement == w.movement
    ensures var a := AnimationEngine.Update(w.animations[s], ms);
            var done := !a.looping && a.finished;
            r.state == (if done then Idle else w.state) &&
            r.animations[s] == (if done && s == Idle then Reset(a) else a) &&
            (done && s != Idle && Idle in w.animations ==> r.animations[Idle] == Reset(w.animations[Idle])) &&
            (forall t | t in w.animations && t != s && !(done && t == Idle) :: r.animations[t] == w.animations[t])
    ensures r.(state := w.state, animations := w.animations) == w
  {
    var a := AnimationEngine.Update(w.animations[s], ms);
    var u := w.(animations := w.animations[s := a]);
    if !a.looping && a.finished then SetState(u, Idle) else u
  }

  /** The walk step, taken only when the current state moves the pet. */
  function MaybeWalk(q: Pet, stride: int): (r: Pet)
    requires AnimationsValid(q)
    ensures AnimationsValid(r)
    ensures r.animations.Keys == q.animations.Keys
    ensures r.posY == q.posY && r.movement == q.movement
    ensures !Moving(q) ==> r == q
    ensures Moving(q) ==> r == WalkAround(q, stride)
  {
    if Moving(q) then WalkAround(q, stride) else q
  }

  /** The part of update after walk scheduling: if the current state has an
      animation, a walk step when that state moves the pet, then an update
      of that animation (the one looked up before the step). Without an
      animation for the current state the idle animation, if any, is
      updated instead. */
  function Animate(q: Pet, ms: int, stride: int): (r: Pet)
    requires AnimationsValid(q)
    ensures AnimationsValid(r)
    ensures r.animations.Keys == q.animations.Keys
    ensures r.posY == q.posY && r.movement == q.movement
    ensures !Moving(q) ==> r.posX == q.posX
    ensures q.state !in q.animations && Idle !in q.animations ==> r == q
    ensures q.state !in q.animations && Idle in q.animations ==>
              r == q.(animations := q.animations[Idle := AnimationEngine.Update(q.animations[Idle], ms)])
    ensures q.state in q.animations ==> r == Advance(MaybeWalk(q, stride), q.state, ms)
  {
    if q.state in q.animations then Advance(MaybeWalk(q, stride), q.state, ms)
    else if Idle in q.animations then
      q.(animations := q.animations[Idle := AnimationEngine.Update(q.animations[Idle], ms)])
    else q
  }

  /** update: walk scheduling, then the animation step with the frame time
      in whole milliseconds. */
  function Update(p: Pet, dt: real, now: real, interval: real, target: int, stride: int): (r: Pet)
    requires TargetMin <= target <= TargetMax
    requires AnimationsValid(p)
    ensures AnimationsValid(r)
    ensures r.animations.Keys == p.animations.Keys
    ensures r.posY == p.posY && r.movement == p.movement
    ensures NoMovement(p) ==> r.posX == p.posX
  {
    Animate(SetWalkAction(p, dt, now, interval, target), Millis(dt), stride)
  }

  /** clean: every animation is released and the table emptied; the pet
      then has nothing to draw. */
  function Clean(p: Pet): (r: Pet)
    ensures r.animations == map[] && AnimationsValid(r)
    ensures forall s :: PlayAnimation(r, s).None?
    ensures r.(animations := p.animations) == p
  {
    p.(animations := map[])
  }

  // ------------------------------------------------------------ loading

  /** The sheet's frame count worked out before slicing: a grid's cell
      count, else as many frame widths as fit across the sheet. */
  function FrameCountFallback(d: AnimationDesc, texW: nat): (r: AnimationDesc)
    ensures r == d.(frames := r.frames)
    ensures d.frames > 0 ==> r.frames == d.frames
    ensures d.frames <= 0 && FrameBuilder.IsGrid(d) ==> r.frames == d.rows * d.cols
    ensures d.frames <= 0 && !FrameBuilder.IsGrid(d) && d.frameWidth > 0 ==>
              0 <= r.frames && r.frames * d.frameWidth <= texW < (r.frames + 1) * d.frameWidth
    ensures d.frames <= 0 && !FrameBuilder.IsGrid(d) && d.frameWidth <= 0 ==> r == d
  {
    if d.frames > 0 then d
    else if FrameBuilder.IsGrid(d) then d.(frames := d.rows * d.cols)
    else if d.frameWidth > 0 then
      CInt.TruncQuotient(texW, d.frameWidth);
      d.(frames := CInt.TruncToInt(texW as real / d.frameWidth as real))
    else d
  }

  /** What one manifest entry yields: its texture, its frames and its
      normalised description; nothing when its texture does not load or no
      frame can be cut from it. */
  function Prepare(m: Manifest, textures: TextureLoader, name: string): (r: Option<(Texture, seq<Frame>, AnimationDesc)>)
    requires name in m.animations
    ensures var d := ManifestLoader.NormalizeDesc(m.animations[name], m.defaults);
            textures(FullPath(m.basePath, d.path)).None? ==> r.None?
    ensures r.Some? ==> r.value.1 != []
    ensures r.Some? ==> r.value.2.name == m.animations[name].name &&
                        r.value.2.loop == m.animations[name].loop &&
                        r.value.2.isMovement == m.animations[name].isMovement
    ensures var d := ManifestLoader.NormalizeDesc(m.animations[name], m.defaults);
            var tex := textures(FullPath(m.basePath, d.path));
            tex.Some? ==>
              var sz := tex.value.size.GetOr(Size(0, 0));
              var d' := FrameCountFallback(d, sz.w);
              var frames := if d'.rects != [] then FrameBuilder.FramesFromRects(d')
                            else FrameBuilder.FramesFromGrid(d', sz.w, sz.h);
              (r.None? <==> frames == []) && (r.Some? ==> r.value == (tex.value, frames, d'))
  {
    var d := ManifestLoader.NormalizeDesc(m.animations[name], m.defaults);
    match textures(FullPath(m.basePath, d.path))
    case None => None
    case Some(t) =>
      var sz := t.size.GetOr(Size(0, 0));
      var d' := FrameCountFallback(d, sz.w);
      var frames := if d'.rects != [] then FrameBuilder.FramesFromRects(d')
                    else FrameBuilder.FramesFromGrid(d', sz.w, sz.h);
      if frames == [] then None else Some((t, frames, d'))
  }

  /** The image path: the base path, when there is one, followed by the
      entry's own path. */
  function FullPath(basePath: string, path: string): (r: string)
    ensures basePath == [] ==> r == path
    ensures basePath <= r && r[|basePath|..] == path
  {
    if basePath == [] then path else basePath + path
  }

  /** One turn of the loading loop. A prepared entry becomes a freshly
      initialised animation stored under the state its name maps to
      (replacing any animation already there), with its movement flag; the
      first entry stored sets the pet's frame size. */
  function LoadOne(p: Pet, m: Manifest, textures: TextureLoader, name: string, sizeSet: bool): (r: (Pet, bool))
    requires name in m.animations
    ensures Prepare(m, textures, name).None? ==> r == (p, sizeSet)
    ensures Prepare(m, textures, name).Some? ==>
              var (t, frames, d) := Prepare(m, textures, name).value;
              var s := MapNameToState(d.name);
              r.1 && r.0.animations == p.animations[s := Init(Blank, Some(t.handle), frames, d.loop)] &&
              r.0.movement == p.movement[s := d.isMovement] &&
              (sizeSet ==> r.0.width == p.width && r.0.height == p.height) &&
              (!sizeSet && t.size.None? ==> r.0.width == p.width && r.0.height == p.height) &&
              (!sizeSet && t.size.Some? ==>
                 r.0.height == t.size.value.h &&
                 0 <= r.0.width && r.0.width * |frames| <= t.size.value.w < (r.0.width + 1) * |frames|) &&
              (!sizeSet ==> (r.0.width, r.0.height) == (SetWidthAndHeight(p, t, |frames|).width,
                                                        SetWidthAndHeight(p, t, |frames|).height))
    ensures r.0.(animations := p.animations, movement := p.movement, width := p.width, height := p.height) == p
    ensures r.0.state == p.state && r.0.posX == p.posX && r.0.posY == p.posY
    ensures AnimationsValid(p) ==> AnimationsValid(r.0)
  {
    match Prepare(m, textures, name)
    case None => (p, sizeSet)
    case Some((t, frames, d)) =>
      var anim := Init(Blank, Some(t.handle), frames, d.loop);
      var q := if sizeSet then p else SetWidthAndHeight(p, t, |frames|);
      var s := MapNameToState(d.name);
      (q.(animations := q.animations[s := anim], movement := q.movement[s := d.isMovement]), true)
  }

  /** Entry `name` yields an animation. */
  predicate Kept(m: Manifest, textures: TextureLoader, name: string)
    requires name in m.animations
  {
    Prepare(m, textures, name).Some?
  }

  /** The state entry `name` is stored under. */
  function StateOf(m: Manifest, name: string): PetState
    requires name in m.animations
  {
    MapNameToState(m.animations[name].name)
  }

  /** The loading loop over the entries in the order the manifest's hash
      map visits them: every entry that yields an animation ends up with
      an animation stored under its state. */
  function LoadEach(p: Pet, m: Manifest, textures: TextureLoader, order: seq<string>, sizeSet: bool): (r: Pet)
    requires forall i | 0 <= i < |order| :: order[i] in m.animations
    ensures p.animations.Keys <= r.animations.Keys
    ensures forall i | 0 <= i < |order| && Kept(m, textures, order[i]) :: StateOf(m, order[i]) in r.animations
    ensures r.state == p.state && r.posX == p.posX && r.posY == p.posY
    ensures AnimationsValid(p) ==> AnimationsValid(r)
    decreases |order|
  {
    if order == [] then p
    else
      var (q, set') := LoadOne(p, m, textures, order[0], sizeSet);
      var r := LoadEach(q, m, textures, order[1..], set');
      assert forall i | 1 <= i < |order| :: order[i] == order[1..][i - 1];
      r
  }

  /** `order` lists every key of `keys` exactly once. */
  predicate Enumerates(order: seq<string>, keys: set<string>)
  {
    (forall i | 0 <= i < |order| :: order[i] in keys) &&
    (forall k | k in keys :: k in order) &&
    (forall i, j | 0 <= i < j < |order| :: order[i] != order[j])
  }

  /** loadAnimations, given the outcome of loading the manifest and the
      order its entries are visited in: fails without a renderer or without
      a manifest; otherwise loads every entry it can and reports whether the
      pet now has any animation. */
  function LoadAnimations(p: Pet, mf: ManifestLoader.Loaded, textures: TextureLoader, order: seq<string>): (r: (Pet, bool))
    requires Enumerates(order, mf.manifest.animations.Keys)
    ensures !p.hasRenderer || !mf.ok ==> r == (p, false)
    ensures r.1 <==> p.hasRenderer && mf.ok && r.0.animations != map[]
    ensures p.hasRenderer && mf.ok ==>
              forall k | k in mf.manifest.animations && Kept(mf.manifest, textures, k) ::
                StateOf(mf.manifest, k) in r.0.animations && r.1
    ensures p.animations.Keys <= r.0.animations.Keys
    ensures r.0.state == p.state && r.0.posX == p.posX && r.0.posY == p.posY
    ensures AnimationsValid(p) ==> AnimationsValid(r.0)
  {
    if !p.hasRenderer || !mf.ok then (p, false)
    else
      var q := LoadEach(p, mf.manifest, textures, order, false);
      (q, q.animations != map[])
  }

  // ----------------------------------------------------------- properties

  /** Letter case does not matter to the state mapping. */
  lemma MapNameIgnoresCase(a: string, b: string)
    requires LowerStr(a) == LowerStr(b)
    ensures MapNameToState(a) == MapNameToState(b)
  {
  }

  /** Entering a state twice is entering it once. */
  lemma SetStateIdempotent(p: Pet, s: PetState)
    ensures SetState(SetState(p, s), s) == SetState(p, s)
  {
  }

  /** `k` walk steps with the given strides. */
  function WalkSteps(p: Pet, strides: seq<int>): (r: Pet)
    ensures r.targetX == p.targetX
    decreases |strides|
  {
    if strides == [] then p else WalkSteps(WalkAround(p, strides[0]), strides[1..])
  }

  /** The walk never overshoots and always arrives: with non-negative
      strides the pet stays between where it started and its target, and
      after as many steps as it had pixels to go (at least one) it stands
      on the target, idle. */
  lemma {:induction false} WalkArrives(p: Pet, strides: seq<int>)
    requires forall i | 0 <= i < |strides| :: strides[i] >= 0
    ensures var r := WalkSteps(p, strides);
            Distance(r) <= Distance(p) &&
            (p.posX <= p.targetX ==> p.posX <= r.posX <= p.targetX) &&
            (p.targetX <= p.posX ==> p.targetX <= r.posX <= p.posX)
    ensures |strides| >= Distance(p) ==> WalkSteps(p, strides).posX == p.targetX
    ensures |strides| >= Distance(p) && |strides| > 0 ==> WalkSteps(p, strides).state == Idle
    decreases |strides|
  {
    if strides != [] {
      var q := WalkAround(p, strides[0]);
      WalkArrives(q, strides[1..]);
      if Distance(q) == 0 && |strides| > 1 {
        AtTargetStaysIdle(q, strides[1..]);
      }
    }
  }

  /** Standing on the target, every further walk step leaves the pet there,
      idle. */
  lemma {:induction false} AtTargetStaysIdle(p: Pet, strides: seq<int>)
    requires p.posX == p.targetX && strides != []
    ensures WalkSteps(p, strides).posX == p.targetX && WalkSteps(p, strides).state == Idle
    decreases |strides|
  {
    var q := WalkAround(p, strides[0]);
    if |strides| > 1 {
      AtTargetStaysIdle(q, strides[1..]);
    }
  }

  /** The loader never sets a movement flag, so a pet whose animations all
      come from a loaded manifest has none, and its update never moves it. */
  lemma {:induction false} LoadedPetNeverMoves(p: Pet, path: string, text: string, conv: JsonParser.NumberConv,
                                               textures: TextureLoader, order: seq<string>)
    requires NoMovement(p)
    requires Enumerates(order, ManifestLoader.LoadManifest(path, text, conv).manifest.animations.Keys)
    ensures NoMovement(LoadAnimations(p, ManifestLoader.LoadManifest(path, text, conv), textures, order).0)
  {
    var mf := ManifestLoader.LoadManifest(path, text, conv);
    if p.hasRenderer && mf.ok {
      LoadEachKeepsStill(p, mf.manifest, textures, order, false);
    }
  }

  lemma {:induction false} LoadEachKeepsStill(p: Pet, m: Manifest, textures: TextureLoader, order: seq<string>, sizeSet: bool)
    requires forall i | 0 <= i < |order| :: order[i] in m.animations
    requires forall k | k in m.animations :: !m.animations[k].isMovement
    requires NoMovement(p)
    ensures NoMovement(LoadEach(p, m, textures, order, sizeSet))
    decreases |order|
  {
    if order != [] {
      var (q, set') := LoadOne(p, m, textures, order[0], sizeSet);
      LoadEachKeepsStill(q, m, textures, order[1..], set');
    }
  }

  /** The loading loop stores nothing else: every state with an animation
      afterwards had one before or is the state of an entry that yields
      one. */
  lemma {:induction false} LoadEachOnlyKept(p: Pet, m: Manifest, textures: TextureLoader, order: seq<string>, sizeSet: bool)
    requires forall i | 0 <= i < |order| :: order[i] in m.animations
    ensures forall s | s in LoadEach(p, m, textures, order, sizeSet).animations ::
              s in p.animations ||
              exists i | 0 <= i < |order| :: Kept(m, textures, order[i]) && StateOf(m, order[i]) == s
    decreases |order|
  {
    if order != [] {
      var (q, set') := LoadOne(p, m, textures, order[0], sizeSet);
      LoadEachOnlyKept(q, m, textures, order[1..], set');
      forall s | s in LoadEach(p, m, textures, order, sizeSet).animations
        ensures s in p.animations ||
                exists i | 0 <= i < |order| :: Kept(m, textures, order[i]) && StateOf(m, order[i]) == s
      {
        if s !in p.animations {
          if s in q.animations {
            assert Kept(m, textures, order[0]) && StateOf(m, order[0]) == s;
          } else {
            var j :| 0 <= j < |order[1..]| && Kept(m, textures, order[1..][j]) && StateOf(m, order[1..][j]) == s;
            assert order[1..][j] == order[j + 1];
          }
        }
      }
    }
  }

  /** With a renderer and a manifest, loading succeeds as soon as one entry
      yields an animation, and a pet without animations before succeeds
      only then. */
  lemma LoadSucceedsIffSomeKept(p: Pet, mf: ManifestLoader.Loaded, textures: TextureLoader, order: seq<string>)
    requires Enumerates(order, mf.manifest.animations.Keys)
    requires p.hasRenderer && mf.ok && p.animations == map[]
    ensures LoadAnimations(p, mf, textures, order).1 <==>
              exists k | k in mf.manifest.animations :: Kept(mf.manifest, textures, k)
  {
    var q := LoadEach(p, mf.manifest, textures, order, false);
    if q.animations != map[] {
      var s :| s in q.animations;
      LoadEachOnlyKept(p, mf.manifest, textures, order, false);
      var i :| 0 <= i < |order| && Kept(mf.manifest, textures, order[i]) && StateOf(mf.manifest, order[i]) == s;
      assert order[i] in mf.manifest.animations;
    }
  }

  /** When no entry yields an animation, loading leaves the pet as it was
      and succeeds only if the pet already had animations. */
  lemma NothingLoaded(p: Pet, mf: ManifestLoader.Loaded, textures: TextureLoader, order: seq<string>)
    requires Enumerates(order, mf.manifest.animations.Keys)
    requires forall i | 0 <= i < |order| :: Prepare(mf.manifest, textures, order[i]).None?
    ensures LoadAnimations(p, mf, textures, order) == (p, p.hasRenderer && mf.ok && p.animations != map[])
  {
    if p.hasRenderer && mf.ok {
      NothingEach(p, mf.manifest, textures, order, false);
    }
  }

  lemma {:induction false} NothingEach(p: Pet, m: Manifest, textures: TextureLoader, order: seq<string>, sizeSet: bool)
    requires forall i | 0 <= i < |order| :: order[i] in m.animations
    requires forall i | 0 <= i < |order| :: Prepare(m, textures, order[i]).None?
    ensures LoadEach(p, m, textures, order, sizeSet) == p
    decreases |order|
  {
    if order != [] {
      NothingEach(p, m, textures, order[1..], sizeSet);
    }
  }
}

=== FILE: cint.dfy ===
/** The C++ integer conversions the program relies on, written out for
    Dafny's unbounded integers and exact reals. */
module CInt {

  /** `static_cast<int>` of a floating-point value: the fractional part is
      dropped, rounding toward zero. Values outside the 32-bit range are
      undefined behaviour in C++ and are not modelled. */
  function TruncToInt(x: real): (r: int)
    ensures 0.0 <= x ==> 0 <= r && r as real <= x < r as real + 1.0
    ensures x < 0.0 ==> r <= 0 && r as real - 1.0 < x <= r as real
  {
    if x >= 0.0 then x.Floor else -((-x).Floor)
  }

  function Abs(a: int): nat
  {
    if a < 0 then -a else a
  }

  /** C++ `/` on `int`: the quotient truncated toward zero (Dafny's own `/`
      is Euclidean and differs for negative operands). */
  function CDiv(a: int, b: int): (q: int)
    requires b != 0
    ensures Abs(q) * Abs(b) <= Abs(a) < (Abs(q) + 1) * Abs(b)
    ensures q == 0 || ((q < 0) <==> ((a < 0) != (b < 0)))
  {
    var m := Abs(a) / Abs(b);
    DivBounds(Abs(a), Abs(b));
    var q := if (a < 0) == (b < 0) then m else -m;
    assert Abs(q) == m;
    q
  }

  lemma DivBounds(n: nat, d: nat)
    requires d > 0
    ensures 0 <= n / d
    ensures (n / d) * d <= n < (n / d + 1) * d
  {
    var q, r := n / d, n % d;
    assert n == q * d + r;
    assert (q + 1) * d == q * d + d;
  }

  /** On non-negative operands C++ division agrees with Dafny's. */
  lemma CDivNonNegative(a: nat, b: int)
    requires b > 0
    ensures CDiv(a, b) == a / b
  {
  }

  /** The float quotient of whole numbers, truncated, is the integer
      quotient. */
  lemma TruncQuotient(a: nat, b: int)
    requires b > 0
    ensures var q := TruncToInt(a as real / b as real);
            0 <= q && q * b <= a < (q + 1) * b
  {
    var q := TruncToInt(a as real / b as real);
    QuotientBelow(a, b);
    QuotientAbove(a, b);
    ProductCast(q, b);
    ProductCast(q + 1, b);
  }

  lemma QuotientBelow(a: nat, b: int)
    requires b > 0
    ensures (TruncToInt(a as real / b as real) as real) * (b as real) <= a as real
  {
    var x := a as real / b as real;
    assert x * (b as real) == a as real;
    MulRealLe(TruncToInt(x) as real, x, b as real);
  }

  lemma QuotientAbove(a: nat, b: int)
    requires b > 0
    ensures a as real < (TruncToInt(a as real / b as real) as real + 1.0) * (b as real)
  {
    var x := a as real / b as real;
    assert x * (b as real) == a as real;
    MulRealLt(x, TruncToInt(x) as real + 1.0, b as real);
  }

  lemma ProductCast(q: int, b: int)
    ensures (q * b) as real == (q as real) * (b as real)
  {
  }

  lemma MulRealLe(x: real, y: real, c: real)
    requires x <= y && c > 0.0
    ensures x * c <= y * c
  {
  }

  lemma MulRealLt(x: real, y: real, c: real)
    requires x < y && c > 0.0
    ensures x * c < y * c
  {
  }
}

=== FILE: desktop_pet.dfy ===
/** The pet base class: its state, position and size, the animations it
    owns, and the helpers every pet shares. The fields of the cat pet (the
    movement flags, the walk timer, the walk target and the facing) are
    part of the same record, since the model has no class hierarchy. */
module DesktopPets {
  import opened Wrappers
  import opened ManifestTypes
  import opened AnimationEngine
  import Timers
  import CInt

  datatype PetState = Idle | Walk | Click

  /** The pixel size of a texture, as the size query reports it. */
  datatype Size = Size(w: nat, h: nat)

  /** A loaded texture: an opaque handle, and its size when the size query
      succeeds. */
  datatype Texture = Texture(handle: nat, size: Option<Size>)

  /** Loading the image at a path: `None` when the load fails. */
  type TextureLoader = string -> Option<Texture>

  datatype Pet = Pet(
    hasRenderer: bool,
    state: PetState,
    width: int,
    height: int,
    posX: int,
    posY: int,
    viewScale: int,
    animations: map<PetState, Animation>,
    movement: map<PetState, bool>,
    walkTimer: Timers.Timer,
    targetX: int,
    flipX: bool)

  /** Every animation the pet owns points at one of its frames. */
  predicate AnimationsValid(p: Pet)
  {
    forall s | s in p.animations :: IndexValid(p.animations[s])
  }

  /** The constructor: no renderer yet, idle at the origin, size 0x0, view
      scale 1, no animations. */
  function NewPet(): (p: Pet)
    ensures p.state == Idle && GetPosition(p) == (0, 0)
    ensures p.width == 0 && p.height == 0 && p.viewScale == 1
    ensures !p.hasRenderer && p.animations == map[] && AnimationsValid(p)
  {
    Pet(false, Idle, 0, 0, 0, 0, 1, map[], map[], Timers.Idle, 0, false)
  }

  function GetPosition(p: Pet): (r: (int, int))
    ensures r.0 == p.posX && r.1 == p.posY
  {
    (p.posX, p.posY)
  }

  /** setPosition: only the position changes. */
  function SetPosition(p: Pet, x: int, y: int): (r: Pet)
    ensures GetPosition(r) == (x, y)
    ensures r.(posX := p.posX, posY := p.posY) == p
  {
    p.(posX := x, posY := y)
  }

  /** getWidth / getHeight with a scale factor. */
  function ScaledWidth(p: Pet, scale: int): (r: int)
    ensures scale == 1 ==> r == p.width
    ensures scale == 0 ==> r == 0
    ensures p.width >= 0 && scale >= 1 ==> r >= p.width
  {
    p.width * scale
  }

  function ScaledHeight(p: Pet, scale: int): (r: int)
    ensures scale == 1 ==> r == p.height
    ensures scale == 0 ==> r == 0
    ensures p.height >= 0 && scale >= 1 ==> r >= p.height
  {
    p.height * scale
  }

  /** The base class's setState: only the state changes. */
  function SetState(p: Pet, s: PetState): (r: Pet)
    ensures r.state == s && r.(state := p.state) == p
  {
    p.(state := s)
  }

  /** setWidthAndHeight: the frame width is the texture width shared among
      `totalFrames` (the float quotient truncated), the height is the
      texture height; when the size query fails nothing changes. */
  function SetWidthAndHeight(p: Pet, tex: Texture, totalFrames: int): (r: Pet)
    requires totalFrames != 0
    ensures tex.size.None? ==> r == p
    ensures tex.size.Some? ==> r == p.(width := r.width, height := tex.size.value.h)
    ensures tex.size.Some? && totalFrames > 0 ==>
              0 <= r.width && r.width * totalFrames <= tex.size.value.w < (r.width + 1) * totalFrames
  {
    match tex.size
    case None => p
    case Some(sz) =>
      CInt.TruncQuotient(sz.w, if totalFrames > 0 then totalFrames else 1);
      p.(width := CInt.TruncToInt(sz.w as real / totalFrames as real), height := sz.h)
  }

  /** The state whose animation playAnimation draws for state `s`: that
      state's, else the idle one's, else none. */
  function ChosenAnimation(p: Pet, s: PetState): (r: Option<PetState>)
    ensures r.Some? ==> r.value in p.animations
    ensures s in p.animations <==> r == Some(s)
    ensures r.None? <==> s !in p.animations && Idle !in p.animations
    ensures r.Some? && r.value != s ==> r.value == Idle
  {
    if s in p.animations then Some(s)
    else if Idle in p.animations then Some(Idle)
    else None
  }

  /** playAnimation(s): the chosen animation's current frame drawn at the
      pet's position and size, unmirrored. */
  function PlayAnimation(p: Pet, s: PetState): (r: Option<Draw>)
    requires AnimationsValid(p)
    ensures r.None? <==> !p.hasRenderer || ChosenAnimation(p, s).None? ||
                         p.animations[ChosenAnimation(p, s).value].texture.None? ||
                         p.animations[ChosenAnimation(p, s).value].frames == []
    ensures r.Some? ==> var a := p.animations[ChosenAnimation(p, s).value];
                        r.value.src == a.frames[a.current].src &&
                        r.value.dest == Rect(p.posX, p.posY, p.width, p.height)
  {
    match ChosenAnimation(p, s)
    case None => None
    case Some(c) => Render(p.animations[c], p.hasRenderer, p.posX, p.posY, p.width, p.height)
  }

  /** The width of one of `frameCount` equal frames across a sheet. */
  function SliceWidth(texW: int, frameCount: int): int
    requires frameCount != 0
  {
    CInt.CDiv(texW, frameCount)
  }

  /** getFrames: the sheet at `path` cut into `frameCount` equal frames
      side by side, each 100 ms long; nothing when the texture or its size
      cannot be had. The frame width and height arguments are not used. */
  function GetFrames(textures: TextureLoader, path: string, frameHeight: int, frameWidth: int, frameCount: int): (r: seq<Frame>)
    requires frameCount != 0
    ensures textures(path).None? || textures(path).value.size.None? ==> r == []
    ensures textures(path).Some? && textures(path).value.size.Some? ==>
              |r| == (if frameCount < 0 then 0 else frameCount)
    ensures forall i | 0 <= i < |r| :: r[i].duration == 100 && r[i].src.y == 0
    ensures textures(path).Some? && textures(path).value.size.Some? ==>
              var sz := textures(path).value.size.value;
              forall i | 0 <= i < |r| ::
                r[i].src == Rect(i * CInt.CDiv(sz.w, frameCount), 0, CInt.CDiv(sz.w, frameCount), sz.h)
  {
    match textures(path)
    case None => []
    case Some(t) =>
      match t.size
      case None => []
      case Some(sz) =>
        var fw := SliceWidth(sz.w, frameCount);
        seq(if frameCount < 0 then 0 else frameCount,
            i requires 0 <= i => Frame(Rect(i * fw, 0, fw, sz.h), 100))
  }

  // ----------------------------------------------------------- properties

  /** Setting the position and reading it back gives what was set; setting
      it to what it reads changes nothing. */
  lemma PositionRoundTrip(p: Pet, x: int, y: int)
    ensures GetPosition(SetPosition(p, x, y)) == (x, y)
    ensures SetPosition(p, GetPosition(p).0, GetPosition(p).1) == p
  {
  }

  /** The frames getFrames cuts lie side by side inside the sheet: frame `i`
      starts where frame `i - 1` ends and none reaches past the right edge;
      each spans the sheet's full height, and their common width is the
      largest that fits `n` times across the sheet. */
  lemma {:induction false} GetFramesTileSheet(textures: TextureLoader, path: string, fh: int, fw: int, n: int)
    requires n > 0
    requires textures(path).Some? && textures(path).value.size.Some?
    ensures var sz := textures(path).value.size.value;
            var r := GetFrames(textures, path, fh, fw, n);
            forall i | 0 <= i < |r| ::
              r[i].src.x == i * r[i].src.w && 0 <= r[i].src.x &&
              r[i].src.x + r[i].src.w <= sz.w && r[i].src.h == sz.h &&
              r[i].src.w * n <= sz.w < (r[i].src.w + 1) * n
  {
    var sz := textures(path).value.size.value;
    var r := GetFrames(textures, path, fh, fw, n);
    var w := SliceWidth(sz.w, n);
    CInt.CDivNonNegative(sz.w, n);
    assert w * n <= sz.w && 0 <= w;
    forall i | 0 <= i < |r|
      ensures r[i].src.x == i * r[i].src.w && 0 <= r[i].src.x && r[i].src.x + r[i].src.w <= sz.w
      ensures r[i].src.w * n <= sz.w < (r[i].src.w + 1) * n
    {
      assert r[i].src == Rect(i * w, 0, w, sz.h);
      TileBound(i, n, w);
    }
  }

  lemma TileBound(i: nat, n: nat, w: nat)
    requires i < n
    ensures 0 <= i * w && i * w + w <= n * w
  {
    assert (n - (i + 1)) * w >= 0;
    assert n * w == (i + 1) * w + (n - (i + 1)) * w;
  }
}

=== FILE: frame_builder.dfy ===
/** The frame builders: slicing a sprite sheet into timed frames, either
    from the explicit rectangles of a description or from its frame size
    and row/grid layout. */
module FrameBuilder {
  import opened ManifestTypes
  import CInt

  /** The display time of a frame that does not carry its own:
      `1000 / fps` milliseconds, with 8 fps when the rate is unset. */
  function PerFrame(fps: int): (r: int)
    ensures r >= 0
    ensures fps <= 0 ==> r == 125
    ensures fps > 0 ==> r * fps <= 1000 < (r + 1) * fps
  {
    CInt.CDivNonNegative(1000, if fps > 0 then fps else 8);
    CInt.CDiv(1000, if fps > 0 then fps else 8)
  }

  function RectFrame(fr: FrameRect, per: int): Frame
  {
    Frame(Rect(fr.x, fr.y, fr.w, fr.h), if fr.durationMS > 0 then fr.durationMS else per)
  }

  /** buildFramesFromRects: one frame per listed rectangle, in order, each
      showing its rectangle for its own duration, or for the rate's frame
      time when it gives none. */
  function FramesFromRects(d: AnimationDesc): (r: seq<Frame>)
    ensures |r| == |d.rects|
    ensures forall i | 0 <= i < |r| ::
              r[i].src == Rect(d.rects[i].x, d.rects[i].y, d.rects[i].w, d.rects[i].h)
    ensures forall i | 0 <= i < |r| ::
              r[i].duration == if d.rects[i].durationMS > 0 then d.rects[i].durationMS else PerFrame(d.fps)
  {
    var per := PerFrame(d.fps);
    seq(|d.rects|, i requires 0 <= i < |d.rects| => RectFrame(d.rects[i], per))
  }

  /** The description asks for a grid of known shape. */
  predicate IsGrid(d: AnimationDesc)
  {
    d.layout == "grid" && d.rows > 0 && d.cols > 0
  }

  /** The number of frames asked for: the description's own count if
      positive, else the whole grid, else as many frame widths as fit
      across the sheet. */
  function GridCount(d: AnimationDesc, texW: int): (n: int)
    requires d.frameWidth > 0
    ensures d.frames > 0 ==> n == d.frames
    ensures d.frames <= 0 && IsGrid(d) ==> n == d.rows * d.cols
    ensures d.frames <= 0 && !IsGrid(d) && texW >= 0 ==>
              0 <= n && n * d.frameWidth <= texW < (n + 1) * d.frameWidth
  {
    if d.frames > 0 then d.frames
    else if IsGrid(d) then d.rows * d.cols
    else CInt.CDiv(texW, d.frameWidth)
  }

  /** The frame in row `r`, column `c` of a grid of `fw` by `fh` cells. */
  function Cell(r: int, c: int, fw: int, fh: int, per: int): Frame
  {
    Frame(Rect(c * fw, r * fh, fw, fh), per)
  }

  /** The first `n` cells of the grid, row by row. */
  function GridCells(d: AnimationDesc, n: nat): (r: seq<Frame>)
    requires d.cols > 0
    ensures |r| == n
  {
    seq(n, k requires 0 <= k < n => Cell(k / d.cols, k % d.cols, d.frameWidth, d.frameHeight, PerFrame(d.fps)))
  }

  /** The first `n` cells of a single row. */
  function RowCells(d: AnimationDesc, n: nat): (r: seq<Frame>)
    ensures |r| == n
  {
    seq(n, i requires 0 <= i < n => Cell(0, i, d.frameWidth, d.frameHeight, PerFrame(d.fps)))
  }

  function Min(a: int, b: int): int
  {
    if a < b then a else b
  }

  /** The slicing the builder performs once the frame size is accepted, in
      closed form: a grid yields its first `min(count, rows * cols)` cells
      row by row, anything else the first `count` cells of the top row. */
  function Slice(d: AnimationDesc, texW: int): (r: seq<Frame>)
    requires d.frameWidth > 0
  {
    var n := GridCount(d, texW);
    if IsGrid(d) then GridCells(d, if n <= 0 then 0 else Min(n, d.rows * d.cols))
    else RowCells(d, if n <= 0 then 0 else n)
  }

  /** The frame size buildFramesFromGrid is meant to accept: both sides
      positive. */
  predicate SizeAccepted(d: AnimationDesc)
  {
    d.frameWidth > 0 && d.frameHeight > 0
  }

  /** buildFramesFromGrid with the frame-size guard it is meant to have. */
  function FramesFromGrid(d: AnimationDesc, texW: int, texH: int): (r: seq<Frame>)
    ensures !SizeAccepted(d) ==> r == []
    ensures SizeAccepted(d) ==> r == Slice(d, texW)
  {
    if !SizeAccepted(d) then [] else Slice(d, texW)
  }

  /** buildFramesFromGrid as written: the guard tests the frame width twice
      and never the height. */
  function FramesFromGridAsWritten(d: AnimationDesc, texW: int, texH: int): (r: seq<Frame>)
    ensures d.frameWidth <= 0 ==> r == []
    ensures d.frameWidth > 0 ==> r == Slice(d, texW)
  {
    if d.frameWidth <= 0 || d.frameWidth <= 0 then [] else Slice(d, texW)
  }

  /** buildFramesFromGrid: the frame-size guard, the frame count, then one
      of the two slicing loops. Its result is the closed form above. */
  method BuildFramesFromGrid(d: AnimationDesc, texW: int, texH: int) returns (frames: seq<Frame>)
    ensures frames == FramesFromGrid(d, texW, texH)
  {
    if d.frameWidth <= 0 || d.frameHeight <= 0 {
      return [];
    }
    var per := PerFrame(d.fps);
    var count := d.frames;
    if count <= 0 {
      if d.layout == "grid" && d.rows > 0 && d.cols > 0 {
        count := d.rows * d.cols;
      } else {
        count := if d.frameWidth > 0 then CInt.CDiv(texW, d.frameWidth) else 1;
      }
    }
    if d.layout == "grid" && d.rows > 0 && d.cols > 0 {
      frames := SliceGrid(d, count, per);
    } else {
      frames := SliceRow(d, count, per);
    }
  }

  /** The grid loop: rows top to bottom, cells left to right, stopping after
      `count` frames or at the end of the grid. */
  method SliceGrid(d: AnimationDesc, count: int, per: int) returns (frames: seq<Frame>)
    requires IsGrid(d) && count > 0 && per == PerFrame(d.fps)
    ensures frames == GridCells(d, Min(count, d.rows * d.cols))
  {
    frames := [];
    var idx := 0;
    var r := 0;
    var base := 0;
    while r < d.rows && idx < count
      invariant 0 <= r <= d.rows && base == r * d.cols
      invariant idx == Min(base, count)
      invariant frames == GridCells(d, idx)
    {
      var c := 0;
      while c < d.cols && idx < count
        invariant 0 <= c <= d.cols
        invariant idx == Min(base + c, count)
        invariant frames == GridCells(d, idx)
      {
        GridCellsNext(d, r, c, idx);
        frames := frames + [Cell(r, c, d.frameWidth, d.frameHeight, per)];
        idx := idx + 1;
        c := c + 1;
      }
      NextRow(r, d.cols);
      r := r + 1;
      base := base + d.cols;
    }
    RowsBound(r, d.rows, d.cols);
  }

  /** The row loop: `count` frames left to right along the top row. */
  method SliceRow(d: AnimationDesc, count: int, per: int) returns (frames: seq<Frame>)
    requires per == PerFrame(d.fps)
    ensures frames == RowCells(d, if count <= 0 then 0 else count)
  {
    frames := [];
    var i := 0;
    while i < count
      invariant 0 <= i <= (if count <= 0 then 0 else count)
      invariant frames == RowCells(d, i)
    {
      frames := frames + [Cell(0, i, d.frameWidth, d.frameHeight, per)];
      i := i + 1;
    }
  }

  /** The grid loop's step: the cell after the first `r * cols + c` is row
      `r`, column `c`. */
  lemma GridCellsNext(d: AnimationDesc, r: nat, c: nat, idx: nat)
    requires d.cols > 0 && c < d.cols && idx == r * d.cols + c
    ensures GridCells(d, idx + 1) == GridCells(d, idx) + [Cell(r, c, d.frameWidth, d.frameHeight, PerFrame(d.fps))]
  {
    CellIndex(r, c, d.cols);
    assert GridCells(d, idx + 1)[idx] == Cell(r, c, d.frameWidth, d.frameHeight, PerFrame(d.fps));
  }

  /** Cell `r * cols + c` of the row-by-row numbering is row `r`, column `c`. */
  lemma CellIndex(r: nat, c: nat, cols: nat)
    requires c < cols
    ensures (r * cols + c) / cols == r && (r * cols + c) % cols == c
  {
    DivUnique(r * cols + c, cols, r, c);
  }

  lemma DivUnique(n: int, d: int, q: int, m: int)
    requires d > 0 && 0 <= m < d && n == q * d + m
    ensures n / d == q && n % d == m
  {
    var q', m' := n / d, n % d;
    if q' > q {
      assert (q + 1) * d == q * d + d;
      MulMono(q + 1, q', d);
    } else if q' < q {
      assert (q' + 1) * d == q' * d + d;
      MulMono(q' + 1, q, d);
    }
  }

  lemma MulMono(a: int, b: int, d: int)
    requires a <= b && d >= 0
    ensures a * d <= b * d
  {
    assert b * d - a * d == (b - a) * d;
  }

  lemma NextRow(r: int, cols: int)
    ensures (r + 1) * cols == r * cols + cols
  {
  }

  lemma RowsBound(r: nat, rows: nat, cols: nat)
    requires r <= rows
    ensures r * cols <= rows * cols
  {
    MulMono(r, rows, cols);
  }

  // ----------------------------------------------------------- properties

  /** With a frame rate of at most 1000 every frame built from rectangles is
      shown for a positive time. */
  lemma RectDurationsPositive(d: AnimationDesc)
    requires d.fps <= 1000
    ensures forall f | f in FramesFromRects(d) :: f.duration > 0
  {
    var r := FramesFromRects(d);
    forall f | f in r
      ensures f.duration > 0
    {
      var i :| 0 <= i < |r| && r[i] == f;
    }
  }

  /** Every frame the corrected builder makes is a non-degenerate cell of
      the frame size, shown for the rate's frame time; a row is laid out
      left to right from the sheet's top-left corner. */
  lemma GridFramesWellFormed(d: AnimationDesc, texW: int, texH: int)
    ensures forall f | f in FramesFromGrid(d, texW, texH) ::
              f.src.w == d.frameWidth > 0 && f.src.h == d.frameHeight > 0 &&
              f.duration == PerFrame(d.fps)
    ensures !IsGrid(d) ==> forall i | 0 <= i < |FramesFromGrid(d, texW, texH)| ::
              FramesFromGrid(d, texW, texH)[i].src == Rect(i * d.frameWidth, 0, d.frameWidth, d.frameHeight)
  {
  }

  /** How many frames the corrected builder makes: the requested count in a
      row (none for a non-positive count), at most the whole grid in a grid,
      and a grid cell `k` sits in row `k / cols`, column `k % cols`. */
  lemma GridFrameCount(d: AnimationDesc, texW: int, texH: int)
    requires SizeAccepted(d)
    ensures var n := GridCount(d, texW);
            var r := FramesFromGrid(d, texW, texH);
            (!IsGrid(d) ==> |r| == if n <= 0 then 0 else n) &&
            (IsGrid(d) ==> |r| == Min(n, d.rows * d.cols) && |r| <= d.rows * d.cols) &&
            (IsGrid(d) ==> forall k | 0 <= k < |r| ::
               r[k].src == Rect((k % d.cols) * d.frameWidth, (k / d.cols) * d.frameHeight,
                                d.frameWidth, d.frameHeight))
  {
  }

  /** The guard as written lets a zero frame height through: a 64-pixel-wide
      sheet with 16-pixel-wide, 0-pixel-high frames and no frame count
      yields four zero-height frames, where the intended guard yields none. */
  lemma ZeroHeightSheetAsWritten()
    ensures var d := LoaderDesc("idle").(frameWidth := 16, frameHeight := 0);
            |FramesFromGridAsWritten(d, 64, 48)| == 4 &&
            (forall f | f in FramesFromGridAsWritten(d, 64, 48) :: f.src.h == 0) &&
            FramesFromGrid(d, 64, 48) == []
  {
    var d := LoaderDesc("idle").(frameWidth := 16, frameHeight := 0);
    assert GridCount(d, 64) == 4;
  }
}

=== FILE: hit_test.dfy ===
/** The window hit test: a point over the pet is handled normally, any
    other point passes through to whatever lies beneath the window. */
module HitTest {
  import opened DesktopPets

  /** The answers the hit-test callback gives: normal handling, or the
      custom pass-through answer (code 739). */
  datatype HitResult = Normal | Transparent

  const TransparentCode := 739

  /** A region of the window: a corner and a size. */
  datatype Region = Region(x: int, y: int, w: int, h: int)

  /** `(px, py)` lies in `g`, both edges included. */
  predicate Contains(g: Region, px: int, py: int)
  {
    g.x <= px <= g.x + g.w && g.y <= py <= g.y + g.h
  }

  /** PetHitTestCallback: the pet's box is its position and its size
      multiplied by the view scale; a point on or inside the box's edges is
      handled normally, every other point passes through. */
  function PetHitTest(p: Pet, px: int, py: int): (r: HitResult)
    ensures r == Normal ==> GetPosition(p).0 <= px && GetPosition(p).1 <= py
    ensures r == Normal <==>
              px - p.posX <= ScaledWidth(p, p.viewScale) && py - p.posY <= ScaledHeight(p, p.viewScale) &&
              p.posX <= px && p.posY <= py
  {
    var (x, y) := GetPosition(p);
    var pw := ScaledWidth(p, p.viewScale);
    var ph := ScaledHeight(p, p.viewScale);
    if px >= x && px <= x + pw && py >= y && py <= y + ph then Normal else Transparent
  }

  /** GetHitTestRegion: the size is scaled, the corner is left alone. */
  function GetHitTestRegion(g: Region, scaleX: int := 1, scaleY: int := 1): (r: Region)
    ensures r.x == g.x && r.y == g.y
    ensures g.w >= 0 && scaleX >= 1 ==> r.w >= g.w
    ensures g.h >= 0 && scaleY >= 1 ==> r.h >= g.h
    ensures scaleX == 0 ==> r.w == 0
    ensures scaleY == 0 ==> r.h == 0
  {
    Region(g.x, g.y, g.w * scaleX, g.h * scaleY)
  }

  /** The pet's unscaled box. */
  function PetRegion(p: Pet): Region
  {
    Region(p.posX, p.posY, p.width, p.height)
  }

  // ----------------------------------------------------------- properties

  /** The callback and the region agree: a point is handled normally exactly
      when it lies in the pet's box scaled by the view scale on both axes. */
  lemma HitTestMatchesRegion(p: Pet, px: int, py: int)
    ensures PetHitTest(p, px, py) == Normal <==>
            Contains(GetHitTestRegion(PetRegion(p), p.viewScale, p.viewScale), px, py)
  {
  }

  /** The default scales leave a region as it is. */
  lemma DefaultScaleIsIdentity(g: Region)
    ensures GetHitTestRegion(g) == g
  {
  }

  /** Scaling twice is scaling once by the products. */
  lemma ScalesCompose(g: Region, a: int, b: int, c: int, d: int)
    ensures GetHitTestRegion(GetHitTestRegion(g, a, b), c, d) == GetHitTestRegion(g, a * c, b * d)
  {
    MulAssoc(g.w, a, c);
    MulAssoc(g.h, b, d);
  }

  lemma MulAssoc(x: int, y: int, z: int)
    ensures (x * y) * z == x * (y * z)
  {
  }

  /** A pet of non-negative size drawn at a larger view scale catches every
      point it caught before. */
  lemma LargerScaleCatchesMore(p: Pet, s: int, px: int, py: int)
    requires p.width >= 0 && p.height >= 0 && p.viewScale <= s
    requires PetHitTest(p, px, py) == Normal
    ensures PetHitTest(p.(viewScale := s), px, py) == Normal
  {
    ScaleMono(p.width, p.viewScale, s);
    ScaleMono(p.height, p.viewScale, s);
  }

  lemma ScaleMono(n: nat, a: int, b: int)
    requires a <= b
    ensures n * a <= n * b
  {
    assert n * b - n * a == n * (b - a);
  }

  /** At view scale 0 only the pet's corner is caught; every other point
      lets the click through. */
  lemma ZeroScaleCatchesCorner(p: Pet, px: int, py: int)
    requires p.viewScale == 0
    ensures PetHitTest(p, px, py) == Normal <==> px == p.posX && py == p.posY
  {
  }
}

=== FILE: json.dfy ===
/** The document model of the mini JSON library: a tagged union over the
    six JSON kinds, plus the typed "get with default" accessors that the
    manifest loader uses to read fields permissively. */
module Json {
  import opened Wrappers
  import CInt

  /** A JSON value. A number holds the value the host float parser produced
      (as an exact real); an object maps each key to one value. */
  datatype Value =
    | Null
    | Bool(b: bool)
    | Number(n: real)
    | String(str: string)
    | Array(items: seq<Value>)
    | Object(fields: map<string, Value>)

  /** The numeric slot of a value: every value that is not a number keeps the
      slot's default-constructed 0.0. */
  function RawNumber(v: Value): (r: real)
    ensures v.Number? ==> r == v.n
    ensures !v.Number? ==> r == 0.0
  {
    if v.Number? then v.n else 0.0
  }

  /** The boolean slot of a value: false unless the value is a Bool. */
  function RawBool(v: Value): (r: bool)
    ensures r <==> v == Bool(true)
  {
    v.Bool? && v.b
  }

  /** The field `key` of an object; nothing for a missing key or a receiver
      that is not an object. */
  function Get(v: Value, key: string): (r: Option<Value>)
    ensures r.Some? <==> v.Object? && key in v.fields
    ensures r.Some? ==> r.value == v.fields[key]
  {
    if v.Object? && key in v.fields then Some(v.fields[key]) else None
  }

  /** The stored bool when the field is a Bool, else `def`. */
  function GetBool(v: Value, key: string, def: bool := false): (r: bool)
    ensures v.Object? && key in v.fields && v.fields[key].Bool? ==> r == v.fields[key].b
    ensures !(v.Object? && key in v.fields && v.fields[key].Bool?) ==> r == def
  {
    match Get(v, key)
    case Some(Bool(b)) => b
    case _ => def
  }

  /** The stored number truncated toward zero when the field is a Number,
      else `def`. */
  function GetInt(v: Value, key: string, def: int := 0): (r: int)
    ensures v.Object? && key in v.fields && v.fields[key].Number? ==>
              r == CInt.TruncToInt(v.fields[key].n)
    ensures !(v.Object? && key in v.fields && v.fields[key].Number?) ==> r == def
  {
    match Get(v, key)
    case Some(Number(n)) => CInt.TruncToInt(n)
    case _ => def
  }

  /** The stored number when the field is a Number, else `def`. */
  function GetNumber(v: Value, key: string, def: real := 0.0): (r: real)
    ensures v.Object? && key in v.fields && v.fields[key].Number? ==> r == v.fields[key].n
    ensures !(v.Object? && key in v.fields && v.fields[key].Number?) ==> r == def
  {
    match Get(v, key)
    case Some(Number(n)) => n
    case _ => def
  }

  /** The stored string when the field is a String, else `def`. */
  function GetString(v: Value, key: string, def: string := ""): (r: string)
    ensures v.Object? && key in v.fields && v.fields[key].String? ==> r == v.fields[key].str
    ensures !(v.Object? && key in v.fields && v.fields[key].String?) ==> r == def
  {
    match Get(v, key)
    case Some(String(t)) => t
    case _ => def
  }

  /** The stored elements when the field is an Array, else nothing. */
  function GetArray(v: Value, key: string): (r: Option<seq<Value>>)
    ensures r.Some? <==> v.Object? && key in v.fields && v.fields[key].Array?
    ensures r.Some? ==> r.value == v.fields[key].items
  {
    match Get(v, key)
    case Some(Array(items)) => Some(items)
    case _ => None
  }

  /** The stored members when the field is an Object, else nothing. */
  function GetObject(v: Value, key: string): (r: Option<map<string, Value>>)
    ensures r.Some? <==> v.Object? && key in v.fields && v.fields[key].Object?
    ensures r.Some? ==> r.value == v.fields[key].fields
  {
    match Get(v, key)
    case Some(Object(fields)) => Some(fields)
    case _ => None
  }
}

=== FILE: json_parser.dfy ===
/** The recursive-descent parser of the mini JSON library, as pure functions
    over a cursor `pos` into the input text. Every function returns either a
    value together with the cursor after it, or the error message the
    library reports. The remaining input `|s| - pos` is the termination
    measure: every loop of the library consumes at least one character. */
module JsonParser {
  import opened Wrappers
  import opened Json

  /** The host float conversion (`std::stod`) applied to a number lexeme:
      `None` when it throws. Its result is kept abstract. */
  type NumberConv = string -> Option<real>

  const ErrExpectedQuote := "Expected '\"' at beginning of string"
  const ErrBadEscape := "bad escape"
  const ErrUnterminated := "Unterminated string"
  const ErrExpectedNumber := "expected number"
  const ErrNumberFormat := "Invalid number format"
  const ErrExpectedArray := "Expected '[' at beginning of array"
  const ErrArraySeparator := "Expected ',' or ']' in array"
  const ErrExpectedObject := "Expected '{' at beginning of object"
  const ErrExpectedColon := "Expected ':' after key in object"
  const ErrObjectSeparator := "Expected ',' or '}' in object"
  const ErrInvalidValue := "Invalid value"
  const ErrEndOfInput := "Unexpected end of input"
  const ErrExtraData := "Extra data after valid JSON"

  /** Every message a value parse can fail with. */
  const ValueErrors: set<string> := {
    ErrExpectedQuote, ErrBadEscape, ErrUnterminated, ErrExpectedNumber,
    ErrNumberFormat, ErrExpectedArray, ErrArraySeparator, ErrExpectedObject,
    ErrExpectedColon, ErrObjectSeparator, ErrInvalidValue, ErrEndOfInput
  }

  /** C `isspace` in the "C" locale. */
  predicate IsSpace(c: char)
  {
    c == ' ' || c == '\t' || c == '\n' || c == '\U{000B}' || c == '\U{000C}' || c == '\r'
  }

  /** C `isdigit`. */
  predicate IsDigit(c: char)
  {
    '0' <= c <= '9'
  }

  predicate IsSign(c: char)
  {
    c == '-' || c == '+'
  }

  // ---------------------------------------------------------------- lexer

  /** Lexer::skipWS: the first position at or after `pos` that is not white space. */
  function SkipWS(s: string, pos: nat): (r: nat)
    requires pos <= |s|
    ensures pos <= r <= |s|
    ensures r == |s| || !IsSpace(s[r])
    decreases |s| - pos
  {
    if pos < |s| && IsSpace(s[pos]) then SkipWS(s, pos + 1) else pos
  }

  /** Everything skipWS steps over is white space. */
  lemma {:induction false} SkippedAreSpaces(s: string, pos: nat)
    requires pos <= |s|
    ensures forall i | pos <= i < SkipWS(s, pos) :: IsSpace(s[i])
    decreases |s| - pos
  {
    if pos < |s| && IsSpace(s[pos]) {
      SkippedAreSpaces(s, pos + 1);
    }
  }

  /** Lexer::match: after white space, consume `c` if it is next. */
  function Match(s: string, pos: nat, c: char): (r: Option<nat>)
    requires pos <= |s|
    ensures r.Some? <==> SkipWS(s, pos) < |s| && s[SkipWS(s, pos)] == c
    ensures r.Some? ==> r.value == SkipWS(s, pos) + 1 && pos < r.value <= |s|
  {
    var p := SkipWS(s, pos);
    if p < |s| && s[p] == c then Some(p + 1) else None
  }

  /** Lexer::peek: after white space, is `c` next? */
  function Peek(s: string, pos: nat, c: char): (r: bool)
    requires pos <= |s|
    ensures r <==> SkipWS(s, pos) < |s| && s[SkipWS(s, pos)] == c
  {
    Match(s, pos, c).Some?
  }

  /** Lexer::eof: only white space remains. */
  predicate AtEof(s: string, pos: nat)
    requires pos <= |s|
    ensures AtEof(s, pos) <==> forall i | pos <= i < |s| :: IsSpace(s[i])
  {
    SkippedAreSpaces(s, pos);
    SkipWS(s, pos) == |s|
  }

  // -------------------------------------------------------------- strings

  /** The character an escape `\e` stands for; `\u` is handled by the caller. */
  function Unescape(e: char): (r: char)
    ensures r == e <==> e !in "bfnrt"
    ensures e in "bfnrt" ==> r in "\U{0008}\U{000C}\n\r\t"
  {
    match e
    case '"' => '"'
    case '\\' => '\\'
    case '/' => '/'
    case 'b' => '\U{0008}'
    case 'f' => '\U{000C}'
    case 'n' => '\n'
    case 'r' => '\r'
    case 't' => '\t'
    case _ => e
  }

  /** parseString: a quoted string after optional white space. */
  function ParseString(s: string, pos: nat): (r: Result<(string, nat), string>)
    requires pos <= |s|
    ensures r.Success? ==> pos < r.value.1 <= |s| && s[r.value.1 - 1] == '"'
    ensures r.Failure? ==> r.error in {ErrExpectedQuote, ErrBadEscape, ErrUnterminated}
    ensures (SkipWS(s, pos) == |s| || s[SkipWS(s, pos)] != '"') <==> r == Failure(ErrExpectedQuote)
  {
    var p := SkipWS(s, pos);
    if p >= |s| || s[p] != '"' then Failure(ErrExpectedQuote)
    else StringBody(s, p + 1, "")
  }

  /** The loop of parseString: characters after the opening quote, decoded
      into `acc`, up to the closing quote. */
  function StringBody(s: string, pos: nat, acc: string): (r: Result<(string, nat), string>)
    requires pos <= |s|
    ensures r.Success? ==> pos < r.value.1 <= |s| && s[r.value.1 - 1] == '"'
    ensures r.Success? ==> acc <= r.value.0
    ensures r.Failure? ==> r.error in {ErrBadEscape, ErrUnterminated}
    decreases |s| - pos
  {
    if pos >= |s| then Failure(ErrUnterminated)
    else if s[pos] == '"' then Success((acc, pos + 1))
    else if s[pos] == '\\' then
      if pos + 1 >= |s| then Failure(ErrBadEscape)
      else if s[pos + 1] == 'u' then
        // up to four more characters are skipped; the code point becomes '?'
        StringBody(s, if pos + 6 <= |s| then pos + 6 else |s|, acc + ['?'])
      else StringBody(s, pos + 2, acc + [Unescape(s[pos + 1])])
    else StringBody(s, pos + 1, acc + [s[pos]])
  }

  // -------------------------------------------------------------- numbers

  /** The end of the run of digits starting at `pos`. */
  function Digits(s: string, pos: nat): (r: nat)
    requires pos <= |s|
    ensures pos <= r <= |s|
    ensures r == |s| || !IsDigit(s[r])
    decreases |s| - pos
  {
    if pos < |s| && IsDigit(s[pos]) then Digits(s, pos + 1) else pos
  }

  /** Everything `Digits` steps over is a digit. */
  lemma {:induction false} DigitsAreDigits(s: string, pos: nat)
    requires pos <= |s|
    ensures forall i | pos <= i < Digits(s, pos) :: IsDigit(s[i])
    decreases |s| - pos
  {
    if pos < |s| && IsDigit(s[pos]) {
      DigitsAreDigits(s, pos + 1);
    }
  }

  /** The end of the number lexeme starting at `pos`: an optional sign,
      digits, an optional fraction and an optional exponent, each part
      taken greedily and each digit run possibly empty. */
  function NumberEnd(s: string, pos: nat): (r: nat)
    requires pos <= |s|
    ensures pos <= r <= |s|
  {
    var p1 := if pos < |s| && IsSign(s[pos]) then pos + 1 else pos;
    var p2 := Digits(s, p1);
    var p3 := if p2 < |s| && s[p2] == '.' then Digits(s, p2 + 1) else p2;
    var exponent := p3 < |s| && (s[p3] == 'e' || s[p3] == 'E');
    var q := if !exponent then p3
             else if p3 + 1 < |s| && IsSign(s[p3 + 1]) then p3 + 2
             else p3 + 1;
    if exponent then Digits(s, q) else p3
  }

  /** The parts the scanner splits a number into: sign up to `p1`,
      integer digits up to `p2`, fraction up to `p3`, exponent marker and
      sign up to `q`, exponent digits up to `r`. */
  lemma NumberEndParts(s: string, pos: nat) returns (p1: nat, p2: nat, p3: nat, q: nat, r: nat)
    requires pos <= |s|
    ensures r == NumberEnd(s, pos)
    ensures pos <= p1 <= p2 <= p3 <= r <= |s|
    ensures p1 == pos || (p1 == pos + 1 && IsSign(s[pos]))
    ensures forall x | p1 <= x < p2 :: IsDigit(s[x])
    ensures p3 > p2 ==> s[p2] == '.'
    ensures forall x | p2 + 1 <= x < p3 :: IsDigit(s[x])
    ensures r > p3 ==> (s[p3] == 'e' || s[p3] == 'E') && p3 < q <= r &&
                       (q == p3 + 1 || (q == p3 + 2 && IsSign(s[p3 + 1])))
    ensures forall x | q <= x < r :: IsDigit(s[x])
    ensures p1 == pos + 1 <==> pos < |s| && IsSign(s[pos])
    ensures p2 == |s| || !IsDigit(s[p2])
    ensures p3 > p2 <==> p2 < |s| && s[p2] == '.'
    ensures p3 > p2 ==> p3 == |s| || !IsDigit(s[p3])
    ensures r > p3 <==> p3 < |s| && (s[p3] == 'e' || s[p3] == 'E')
    ensures r > p3 ==> (q == p3 + 2 <==> p3 + 1 < |s| && IsSign(s[p3 + 1]))
    ensures r > p3 ==> r == |s| || !IsDigit(s[r])
  {
    p1 := if pos < |s| && IsSign(s[pos]) then pos + 1 else pos;
    p2 := Digits(s, p1);
    DigitsAreDigits(s, p1);
    p3 := if p2 < |s| && s[p2] == '.' then Digits(s, p2 + 1) else p2;
    if p2 < |s| && s[p2] == '.' {
      DigitsAreDigits(s, p2 + 1);
    }
    var exponent := p3 < |s| && (s[p3] == 'e' || s[p3] == 'E');
    q := if !exponent then p3
         else if p3 + 1 < |s| && IsSign(s[p3 + 1]) then p3 + 2
         else p3 + 1;
    r := if exponent then Digits(s, q) else p3;
    if exponent {
      DigitsAreDigits(s, q);
    }
  }

  /** What the scanner takes is the longest number lexeme of the grammar
      at `pos`. */
  lemma NumberEndIsLexeme(s: string, pos: nat)
    requires pos <= |s|
    ensures IsNumberLexeme(s[pos..NumberEnd(s, pos)])
    ensures forall e | NumberEnd(s, pos) < e <= |s| :: !IsNumberLexeme(s[pos..e])
  {
    var p1, p2, p3, q, r := NumberEndParts(s, pos);
    NumberLexemeParts(s, pos, p1, p2, p3, q, r);
    forall e | NumberEnd(s, pos) < e <= |s| ensures !IsNumberLexeme(s[pos..e]) {
      NumberEndLongest(s, pos, e);
    }
  }

  /** A run of digits, possibly empty. */
  predicate AllDigits(t: string)
  {
    forall i | 0 <= i < |t| :: IsDigit(t[i])
  }

  /** The grammar of the number lexeme, stated independently of the
      scanner: sign? digit* ('.' digit*)? (('e'|'E') sign? digit*)?,
      split at i (after the sign), j (after the integer digits) and k
      (after the fraction). */
  predicate IsNumberLexeme(t: string)
  {
    exists i, j, k | 0 <= i <= j <= k <= |t| ::
      SignPart(t, i) && AllDigits(t[i..j]) && FractionPart(t, j, k) && ExponentPart(t, k)
  }

  predicate SignPart(t: string, i: nat)
  {
    i == 0 || (i == 1 && |t| >= 1 && IsSign(t[0]))
  }

  predicate FractionPart(t: string, j: nat, k: nat)
    requires j <= k <= |t|
  {
    k == j || (t[j] == '.' && AllDigits(t[j + 1..k]))
  }

  predicate ExponentPart(t: string, k: nat)
    requires k <= |t|
  {
    || k == |t|
    || ((t[k] == 'e' || t[k] == 'E') &&
        (AllDigits(t[k + 1..]) || (k + 1 < |t| && IsSign(t[k + 1]) && AllDigits(t[k + 2..]))))
  }

  lemma NumberLexemeParts(s: string, pos: nat, p1: nat, p2: nat, p3: nat, q: nat, r: nat)
    requires pos <= p1 <= p2 <= p3 <= r <= |s|
    requires p1 == pos || (p1 == pos + 1 && IsSign(s[pos]))
    requires forall x | p1 <= x < p2 :: IsDigit(s[x])
    requires p3 > p2 ==> s[p2] == '.'
    requires forall x | p2 + 1 <= x < p3 :: IsDigit(s[x])
    requires r > p3 ==> (s[p3] == 'e' || s[p3] == 'E') && p3 < q <= r &&
                        (q == p3 + 1 || (q == p3 + 2 && IsSign(s[p3 + 1])))
    requires forall x | q <= x < r :: IsDigit(s[x])
    ensures IsNumberLexeme(s[pos..r])
  {
    var t := s[pos..r];
    var i, j, k := p1 - pos, p2 - pos, p3 - pos;
    forall x | i <= x < j ensures IsDigit(t[x]) {
      assert t[x] == s[pos + x];
    }
    DigitsIn(t, i, j);
    if k > j {
      forall x | j + 1 <= x < k ensures IsDigit(t[x]) {
        assert t[x] == s[pos + x];
      }
      DigitsIn(t, j + 1, k);
    }
    if k < |t| {
      var d := q - pos;
      forall x | d <= x < |t| ensures IsDigit(t[x]) {
        assert t[x] == s[pos + x];
      }
      DigitsIn(t, d, |t|);
      assert t[d..] == t[d..|t|];
      assert t[k] == s[p3];
      if d == k + 2 {
        assert t[k + 1] == s[p3 + 1];
      }
    }
    assert SignPart(t, i) && AllDigits(t[i..j]) && FractionPart(t, j, k) && ExponentPart(t, k);
  }

  /** The grammar split of a lexeme `s[pos..e]` at `i`, `j` and `k`, read
      back as facts about `s` itself. */
  lemma LexemeSplitInText(s: string, pos: nat, e: nat, i: nat, j: nat, k: nat)
    requires pos <= e <= |s| && i <= j <= k <= e - pos
    requires SignPart(s[pos..e], i) && AllDigits(s[pos..e][i..j])
    requires FractionPart(s[pos..e], j, k) && ExponentPart(s[pos..e], k)
    ensures i == 0 || (i == 1 && IsSign(s[pos]))
    ensures forall x | pos + i <= x < pos + j :: IsDigit(s[x])
    ensures k > j ==> s[pos + j] == '.'
    ensures forall x | pos + j + 1 <= x < pos + k :: IsDigit(s[x])
    ensures pos + k < e ==>
              && (s[pos + k] == 'e' || s[pos + k] == 'E')
              && ((forall x | pos + k + 1 <= x < e :: IsDigit(s[x])) ||
                  (pos + k + 1 < e && IsSign(s[pos + k + 1]) && forall x | pos + k + 2 <= x < e :: IsDigit(s[x])))
  {
    var t := s[pos..e];
    forall x | pos + i <= x < pos + j ensures IsDigit(s[x]) {
      assert t[i..j][x - pos - i] == s[x];
    }
    if k > j {
      forall x | pos + j + 1 <= x < pos + k ensures IsDigit(s[x]) {
        assert t[j + 1..k][x - pos - j - 1] == s[x];
      }
    }
    if pos + k < e {
      assert t[k] == s[pos + k];
      if AllDigits(t[k + 1..]) {
        forall x | pos + k + 1 <= x < e ensures IsDigit(s[x]) {
          assert t[k + 1..][x - pos - k - 1] == s[x];
        }
      } else {
        assert t[k + 1] == s[pos + k + 1];
        forall x | pos + k + 2 <= x < e ensures IsDigit(s[x]) {
          assert t[k + 2..][x - pos - k - 2] == s[x];
        }
      }
    }
  }

  /** A lexeme of the grammar at `pos`, split at `i`, `j` and `k`, ends no
      later than the scanner: each part the scanner takes is as long as the
      grammar allows. */
  lemma LexemeWithinScan(s: string, pos: nat, e: nat, i: nat, j: nat, k: nat)
    requires pos <= e <= |s| && i <= j <= k <= e - pos
    requires SignPart(s[pos..e], i) && AllDigits(s[pos..e][i..j])
    requires FractionPart(s[pos..e], j, k) && ExponentPart(s[pos..e], k)
    ensures e <= NumberEnd(s, pos)
  {
    var p1, p2, p3, q, r := NumberEndParts(s, pos);
    LexemeSplitInText(s, pos, e, i, j, k);
    if p2 < e {
      assert pos + i == p1;
      assert pos + j == p2;
      if p3 < e {
        assert pos + k == p3;
      }
    }
  }

  /** The scanner takes the longest lexeme of the grammar at `pos`: no
      longer span starting there is a number lexeme. */
  lemma NumberEndLongest(s: string, pos: nat, e: nat)
    requires pos <= e <= |s|
    ensures IsNumberLexeme(s[pos..e]) ==> e <= NumberEnd(s, pos)
  {
    if IsNumberLexeme(s[pos..e]) {
      var t := s[pos..e];
      var i, j, k :| 0 <= i <= j <= k <= |t| &&
        SignPart(t, i) && AllDigits(t[i..j]) && FractionPart(t, j, k) && ExponentPart(t, k);
      LexemeWithinScan(s, pos, e, i, j, k);
    }
  }

  lemma DigitsIn(t: string, lo: nat, hi: nat)
    requires lo <= hi <= |t|
    requires forall x | lo <= x < hi :: IsDigit(t[x])
    ensures AllDigits(t[lo..hi])
  {
  }

  /** parseNumber: scan the lexeme, then convert it with `conv`. An empty
      lexeme is "expected number"; a lexeme the conversion rejects is
      "Invalid number format". */
  function ParseNumber(s: string, pos: nat, conv: NumberConv): (r: Result<(Value, nat), string>)
    requires pos <= |s|
    ensures var p, e := SkipWS(s, pos), NumberEnd(s, SkipWS(s, pos));
            && (r == Failure(ErrExpectedNumber) <==> e == p)
            && (e != p ==> (r == Failure(ErrNumberFormat) <==> conv(s[p..e]).None?))
    ensures r.Success? ==> var p := SkipWS(s, pos);
            && p < r.value.1 == NumberEnd(s, p)
            && conv(s[p..r.value.1]).Some?
            && r.value.0 == Number(conv(s[p..r.value.1]).value)
    ensures r.Failure? ==> r.error in {ErrExpectedNumber, ErrNumberFormat}
  {
    var p := SkipWS(s, pos);
    var e := NumberEnd(s, p);
    if e == p then Failure(ErrExpectedNumber)
    else match conv(s[p..e])
      case None => Failure(ErrNumberFormat)
      case Some(n) => Success((Number(n), e))
  }

  /** A number parse consumes exactly a number lexeme of the grammar. */
  lemma ParseNumberLexeme(s: string, pos: nat, conv: NumberConv)
    requires pos <= |s|
    ensures var r := ParseNumber(s, pos, conv);
            r.Success? ==> IsNumberLexeme(s[SkipWS(s, pos)..r.value.1])
  {
    NumberEndIsLexeme(s, SkipWS(s, pos));
  }

  // --------------------------------------------------------------- values

  /** parseLiteral: the characters of `lit` are read one by one from `pos`
      on, and the loop gives up at the end of the text or at the first
      character that differs. */
  predicate LiteralAt(s: string, pos: nat, lit: string)
    requires pos <= |s|
    ensures LiteralAt(s, pos, lit) ==> pos + |lit| <= |s|
    decreases |lit|
  {
    lit == [] || (pos < |s| && s[pos] == lit[0] && LiteralAt(s, pos + 1, lit[1..]))
  }

  /** parseLiteral's loop accepts exactly when `lit` fits in the rest of the
      text and appears there verbatim, character by character. */
  lemma {:induction false} LiteralAtChars(s: string, pos: nat, lit: string)
    requires pos <= |s|
    ensures LiteralAt(s, pos, lit) <==>
              pos + |lit| <= |s| && forall i | 0 <= i < |lit| :: s[pos + i] == lit[i]
    ensures LiteralAt(s, pos, lit) <==> pos + |lit| <= |s| && s[pos..pos + |lit|] == lit
    decreases |lit|
  {
    if lit != [] && pos < |s| {
      LiteralAtChars(s, pos + 1, lit[1..]);
      if pos + |lit| <= |s| {
        assert s[pos..pos + |lit|] == [s[pos]] + s[pos + 1..pos + 1 + |lit[1..]|];
        assert lit == [lit[0]] + lit[1..];
        if forall i | 0 <= i < |lit| :: s[pos + i] == lit[i] {
          assert forall i | 0 <= i < |lit[1..]| :: s[pos + 1 + i] == lit[1..][i] by {
            forall i | 0 <= i < |lit[1..]| ensures s[pos + 1 + i] == lit[1..][i] {
              assert s[pos + (i + 1)] == lit[i + 1];
            }
          }
        }
      }
    }
  }

  /** parseValue: one JSON value after optional white space. On success the
      cursor has moved past at least one character. */
  function ParseValue(s: string, pos: nat, conv: NumberConv): (r: Result<(Value, nat), string>)
    requires pos <= |s|
    ensures r.Success? ==> pos < r.value.1 <= |s|
    ensures r.Failure? ==> r.error in ValueErrors
    decreases |s| - pos, 2
  {
    var p := SkipWS(s, pos);
    if p >= |s| then Failure(ErrEndOfInput)
    else
      var c := s[p];
      if c == '{' then ParseObject(s, p, conv)
      else if c == '[' then ParseArray(s, p, conv)
      else ParseScalar(s, p, conv)
  }

  /** The value kinds that are not containers: a string, a number, or one
      of the literals `true`, `false` and `null`. */
  function ParseScalar(s: string, p: nat, conv: NumberConv): (r: Result<(Value, nat), string>)
    requires p < |s|
    ensures r.Success? ==> p < r.value.1 <= |s| && !r.value.0.Array? && !r.value.0.Object?
    ensures r.Failure? ==> r.error in ValueErrors
  {
    var c := s[p];
    if c == '"' then
      match ParseString(s, p)
      case Failure(e) => Failure(e)
      case Success((t, q)) => Success((String(t), q))
    else if IsDigit(c) || IsSign(c) then ParseNumber(s, p, conv)
    else if c == 't' && LiteralAt(s, p, "true") then Success((Bool(true), p + 4))
    else if c == 'f' && LiteralAt(s, p, "false") then Success((Bool(false), p + 5))
    else if c == 'n' && LiteralAt(s, p, "null") then Success((Null, p + 4))
    else Failure(ErrInvalidValue)
  }

  /** The character parseArray expects to open an array. The source passes
      the two-character literal '[]' here, which common compilers convert
      to ']' (see ArrayOpenAsWritten); the model uses the evident '['. */
  const ArrayOpen: char := '['

  /** parseArray: `[`, then `]` or values separated by `,` up to `]`. */
  function ParseArray(s: string, pos: nat, conv: NumberConv): (r: Result<(Value, nat), string>)
    requires pos <= |s|
    ensures r.Success? ==> pos < r.value.1 <= |s| && r.value.0.Array?
    ensures r.Failure? ==> r.error in ValueErrors
    decreases |s| - pos, 1
  {
    match Match(s, pos, ArrayOpen)
    case None => Failure(ErrExpectedArray)
    case Some(p) =>
      if Peek(s, p, ']') then Success((Array([]), SkipWS(s, p) + 1))
      else Elements(s, p, [], conv)
  }

  /** The character the source's `match('[]')` actually compares against:
      the two-character constant has the value `'[' * 256 + ']'`, and its
      conversion to the `char` parameter keeps the low byte, `']'`. */
  const ArrayOpenAsWritten: char := (((ArrayOpen as int) * 256 + (']' as int)) % 256) as char

  /** parseArray as written, opening with `ArrayOpenAsWritten`. */
  function ParseArrayAsWritten(s: string, pos: nat, conv: NumberConv): (r: Result<(Value, nat), string>)
    requires pos <= |s|
    ensures r.Success? ==> pos < r.value.1 <= |s| && r.value.0.Array?
  {
    match Match(s, pos, ArrayOpenAsWritten)
    case None => Failure(ErrExpectedArray)
    case Some(p) =>
      if Peek(s, p, ']') then Success((Array([]), SkipWS(s, p) + 1))
      else Elements(s, p, [], conv)
  }

  /** As written, parseArray rejects every array: parseValue only calls it
      at a `[`, which is not the `]` it looks for. */
  lemma ArrayRejectedAsWritten(s: string, pos: nat, conv: NumberConv)
    requires pos <= |s| && SkipWS(s, pos) < |s| && s[SkipWS(s, pos)] == '['
    ensures ParseArrayAsWritten(s, pos, conv) == Failure(ErrExpectedArray)
    ensures Match(s, pos, ArrayOpen) == Some(SkipWS(s, pos) + 1)
  {
    assert ArrayOpenAsWritten == ']';
  }

  /** The loop of parseArray: `acc` holds the elements parsed so far. */
  function Elements(s: string, pos: nat, acc: seq<Value>, conv: NumberConv): (r: Result<(Value, nat), string>)
    requires pos <= |s|
    ensures r.Success? ==> pos < r.value.1 <= |s| && r.value.0.Array?
    ensures r.Failure? ==> r.error in ValueErrors
    decreases |s| - pos, 3
  {
    match ParseValue(s, pos, conv)
    case Failure(e) => Failure(e)
    case Success((v, q)) =>
      match Match(s, q, ']')
      case Some(q') => Success((Array(acc + [v]), q'))
      case None =>
        match Match(s, q, ',')
        case None => Failure(ErrArraySeparator)
        case Some(q') => Elements(s, q', acc + [v], conv)
  }

  /** parseObject: `{`, then `}` or `"key": value` members separated by `,`
      up to `}`. */
  function ParseObject(s: string, pos: nat, conv: NumberConv): (r: Result<(Value, nat), string>)
    requires pos <= |s|
    ensures r.Success? ==> pos < r.value.1 <= |s| && r.value.0.Object?
    ensures r.Failure? ==> r.error in ValueErrors
    decreases |s| - pos, 1
  {
    match Match(s, pos, '{')
    case None => Failure(ErrExpectedObject)
    case Some(p) =>
      if Peek(s, p, '}') then Success((Object(map[]), SkipWS(s, p) + 1))
      else Members(s, p, map[], conv)
  }

  /** One member of an object: a key string, `:` and a value. */
  function ParseMember(s: string, pos: nat, conv: NumberConv): (r: Result<(string, Value, nat), string>)
    requires pos <= |s|
    ensures r.Success? ==> pos < r.value.2 <= |s|
    ensures r.Failure? ==> r.error in ValueErrors
    decreases |s| - pos, 2
  {
    match ParseString(s, pos)
    case Failure(e) => Failure(e)
    case Success((key, q)) =>
      match Match(s, q, ':')
      case None => Failure(ErrExpectedColon)
      case Some(q1) =>
        match ParseValue(s, q1, conv)
        case Failure(e) => Failure(e)
        case Success((v, q2)) => Success((key, v, q2))
  }

  /** The loop of parseObject: `acc` holds the members parsed so far. A
      repeated key keeps its first value (`emplace` does not overwrite). */
  function Members(s: string, pos: nat, acc: map<string, Value>, conv: NumberConv): (r: Result<(Value, nat), string>)
    requires pos <= |s|
    ensures r.Success? ==> pos < r.value.1 <= |s| && r.value.0.Object?
    ensures r.Failure? ==> r.error in ValueErrors
    decreases |s| - pos, 3
  {
    match ParseMember(s, pos, conv)
    case Failure(e) => Failure(e)
    case Success((key, v, q2)) =>
      var acc' := if key in acc then acc else acc[key := v];
      match Match(s, q2, '}')
      case Some(q3) => Success((Object(acc'), q3))
      case None =>
        match Match(s, q2, ',')
        case None => Failure(ErrObjectSeparator)
        case Some(q3) => Members(s, q3, acc', conv)
  }

  /** parse: one value followed by nothing but white space. */
  function Parse(s: string, conv: NumberConv): (r: Result<Value, string>)
    ensures r.Success? ==> ParseValue(s, 0, conv).Success?
    ensures r.Success? ==> var (v, p) := ParseValue(s, 0, conv).value;
            r.value == v && forall i | p <= i < |s| :: IsSpace(s[i])
    ensures ParseValue(s, 0, conv).Success? ==>
              var p := ParseValue(s, 0, conv).value.1;
              (exists i | p <= i < |s| :: !IsSpace(s[i])) <==> r == Failure(ErrExtraData)
    ensures ParseValue(s, 0, conv).Failure? ==> r == Failure(ParseValue(s, 0, conv).error)
    ensures r.Failure? ==> r.error in ValueErrors + {ErrExtraData}
  {
    match ParseValue(s, 0, conv)
    case Failure(e) => Failure(e)
    case Success((v, p)) =>
      SkippedAreSpaces(s, p);
      if AtEof(s, p) then Success(v) else Failure(ErrExtraData)
  }

  // ----------------------------------------------------------- properties

  /** The element loop only ever appends: the elements parsed before
      `pos` begin the resulting array. */
  lemma {:induction false} ElementsExtend(s: string, pos: nat, acc: seq<Value>, conv: NumberConv)
    requires pos <= |s|
    ensures var r := Elements(s, pos, acc, conv);
            r.Success? ==> acc < r.value.0.items
    decreases |s| - pos
  {
    match ParseValue(s, pos, conv)
    case Failure(_) =>
    case Success((v, q)) =>
      if Match(s, q, ']').None? && Match(s, q, ',').Some? {
        ElementsExtend(s, Match(s, q, ',').value, acc + [v], conv);
      }
  }

  /** A repeated key keeps its first value: every member parsed before
      `pos` is in the resulting object, unchanged. */
  lemma {:induction false} MembersKeepFirst(s: string, pos: nat, acc: map<string, Value>, conv: NumberConv)
    requires pos <= |s|
    ensures var r := Members(s, pos, acc, conv);
            r.Success? ==> acc.Keys <= r.value.0.fields.Keys &&
                           forall k | k in acc :: r.value.0.fields[k] == acc[k]
    decreases |s| - pos
  {
    match ParseMember(s, pos, conv)
    case Failure(_) =>
    case Success((key, v, q2)) =>
      var acc' := if key in acc then acc else acc[key := v];
      if Match(s, q2, '}').None? && Match(s, q2, ',').Some? {
        MembersKeepFirst(s, Match(s, q2, ',').value, acc', conv);
      }
  }

  /** Empty or all-white-space text is "Unexpected end of input". */
  lemma BlankInputFails(s: string, conv: NumberConv)
    requires forall i | 0 <= i < |s| :: IsSpace(s[i])
    ensures Parse(s, conv) == Failure(ErrEndOfInput)
  {
  }

  /** A `t`, `f` or `n` that does not begin the exact literal is "Invalid value". */
  lemma MismatchedLiteral(s: string, pos: nat, conv: NumberConv)
    requires pos <= |s|
    requires var p := SkipWS(s, pos);
             p < |s| &&
             ((s[p] == 't' && !LiteralAt(s, p, "true")) ||
              (s[p] == 'f' && !LiteralAt(s, p, "false")) ||
              (s[p] == 'n' && !LiteralAt(s, p, "null")))
    ensures ParseValue(s, pos, conv) == Failure(ErrInvalidValue)
  {
  }

  /** The decoding of a two-character escape other than `\u`: the eight
      JSON escapes give their characters, any other character stands for itself. */
  lemma EscapeDecoding(s: string, pos: nat, acc: string)
    requires pos + 1 < |s| && s[pos] == '\\' && s[pos + 1] != 'u'
    ensures StringBody(s, pos, acc) == StringBody(s, pos + 2, acc + [Unescape(s[pos + 1])])
    ensures Unescape(s[pos + 1]) ==
            match s[pos + 1]
            case 'b' => '\U{0008}'
            case 'f' => '\U{000C}'
            case 'n' => '\n'
            case 'r' => '\r'
            case 't' => '\t'
            case e => e
  {
  }

  /** `\u` skips up to four further characters and contributes one '?'. */
  lemma UnicodeEscapePlaceholder(s: string, pos: nat, acc: string)
    requires pos + 1 < |s| && s[pos] == '\\' && s[pos + 1] == 'u'
    ensures StringBody(s, pos, acc) ==
            StringBody(s, if pos + 6 <= |s| then pos + 6 else |s|, acc + ['?'])
  {
  }

  /** Text with no quote and no backslash never closes the string. */
  lemma {:induction false} UnterminatedString(s: string, pos: nat, acc: string)
    requires pos <= |s|
    requires forall i | pos <= i < |s| :: s[i] != '"' && s[i] != '\\'
    ensures StringBody(s, pos, acc) == Failure(ErrUnterminated)
    decreases |s| - pos
  {
    if pos < |s| {
      UnterminatedString(s, pos + 1, acc + [s[pos]]);
    }
  }

  /** A backslash as the last character of the input is a "bad escape". */
  lemma {:induction false} TrailingBackslash(s: string, pos: nat, acc: string)
    requires pos < |s| && s[|s| - 1] == '\\'
    requires forall i | pos <= i < |s| - 1 :: s[i] != '"' && s[i] != '\\'
    ensures StringBody(s, pos, acc) == Failure(ErrBadEscape)
    decreases |s| - pos
  {
    if pos < |s| - 1 {
      TrailingBackslash(s, pos + 1, acc + [s[pos]]);
    }
  }
}

=== FILE: json_roundtrip.dfy ===
/** A reference spelling of JSON strings and literals with the proof that
    the parser reads each back, and the laws of the array and object loops:
    laid-out elements are collected in order, laid-out members into a map
    in which the first value of a repeated key wins. */
module JsonRoundTrip {
  import opened Wrappers
  import opened Json
  import opened JsonParser

  // ------------------------------------------------------------- strings

  /** The spelling of one character inside a string literal. */
  function EscapeChar(c: char): (r: string)
    ensures |r| == 1 ==> r == [c] && c != '"' && c != '\\'
    ensures |r| != 1 ==> |r| == 2 && r[0] == '\\' && r[1] != 'u' && Unescape(r[1]) == c
  {
    match c
    case '"' => "\\\""
    case '\\' => "\\\\"
    case '\U{0008}' => "\\b"
    case '\U{000C}' => "\\f"
    case '\n' => "\\n"
    case '\r' => "\\r"
    case '\t' => "\\t"
    case _ => [c]
  }

  function Escape(t: string): string
  {
    if t == [] then [] else EscapeChar(t[0]) + Escape(t[1..])
  }

  /** A string literal: the escaped text between double quotes. */
  function Quote(t: string): string
  {
    "\"" + Escape(t) + "\""
  }

  lemma LiteralAtConcat(s: string, pos: nat, a: string, b: string)
    requires pos <= |s|
    requires LiteralAt(s, pos, a + b)
    ensures LiteralAt(s, pos, a) && LiteralAt(s, pos + |a|, b)
  {
    LiteralAtChars(s, pos, a + b);
    LiteralAtChars(s, pos, a);
    LiteralAtChars(s, pos + |a|, b);
    assert s[pos..pos + |a|] == (a + b)[..|a|];
    assert s[pos + |a|..pos + |a| + |b|] == (a + b)[|a|..];
  }

  /** `r` is a successful string parse of `t` that stops at `n`. */
  predicate ReadsText(r: Result<(string, nat), string>, t: string, n: nat)
  {
    r.Success? && r.value.0 == t && r.value.1 == n
  }

  /** One spelled character is decoded back by one step of the loop. */
  lemma StringBodyStep(s: string, pos: nat, c: char, acc: string, t: string, n: nat)
    requires pos <= |s| && LiteralAt(s, pos, EscapeChar(c))
    requires ReadsText(StringBody(s, pos + |EscapeChar(c)|, acc + [c]), t, n)
    ensures ReadsText(StringBody(s, pos, acc), t, n)
  {
    var e := EscapeChar(c);
    LiteralAtChars(s, pos, e);
    assert s[pos] == e[0];
    if |e| == 2 {
      assert s[pos + 1] == e[1];
    }
  }

  /** An escaped text followed by the closing quote starts with the
      spelling of its first character. */
  lemma EscapeSplit(s: string, pos: nat, t: string)
    requires t != [] && pos <= |s| && LiteralAt(s, pos, Escape(t) + "\"")
    ensures LiteralAt(s, pos, EscapeChar(t[0]))
    ensures LiteralAt(s, pos + |EscapeChar(t[0])|, Escape(t[1..]) + "\"")
    ensures |Escape(t)| == |EscapeChar(t[0])| + |Escape(t[1..])|
  {
    var e := EscapeChar(t[0]);
    assert Escape(t) + "\"" == e + (Escape(t[1..]) + "\"");
    LiteralAtConcat(s, pos, e, Escape(t[1..]) + "\"");
  }

  /** The loop of parseString reads an escaped text back. */
  lemma {:induction false} StringBodyRoundTrip(s: string, pos: nat, t: string, acc: string)
    requires pos <= |s| && LiteralAt(s, pos, Escape(t) + "\"")
    ensures ReadsText(StringBody(s, pos, acc), acc + t, pos + |Escape(t)| + 1)
    decreases |t|
  {
    if t == [] {
      assert s[pos] == (Escape(t) + "\"")[0] == '"';
      assert acc + t == acc;
    } else {
      var e := EscapeChar(t[0]);
      EscapeSplit(s, pos, t);
      StringBodyRoundTrip(s, pos + |e|, t[1..], acc + [t[0]]);
      assert acc + [t[0]] + t[1..] == acc + t;
      StringBodyStep(s, pos, t[0], acc, acc + t, pos + |Escape(t)| + 1);
    }
  }

  /** parseString reads a string literal back. */
  lemma QuoteRoundTrip(s: string, pos: nat, t: string)
    requires pos <= |s| && LiteralAt(s, pos, Quote(t))
    ensures ReadsText(ParseString(s, pos), t, pos + |Quote(t)|)
  {
    assert Quote(t) == "\"" + (Escape(t) + "\"");
    LiteralAtConcat(s, pos, "\"", Escape(t) + "\"");
    assert s[pos] == '"';
    assert SkipWS(s, pos) == pos;
    StringBodyRoundTrip(s, pos + 1, t, "");
    assert "" + t == t;
    assert |Quote(t)| == |Escape(t)| + 2;
  }

  // -------------------------------------------------------------- values

  /** The characters a value's text can begin with. */
  predicate StartsValue(c: char)
  {
    c == 't' || c == 'f' || c == 'n' || c == '"' || c == '[' || c == '{'
  }

  /** The text of a literal or a string value. */
  function ScalarText(v: Value): (r: string)
    requires v.Null? || v.Bool? || v.String?
    ensures |r| >= 2 && StartsValue(r[0])
  {
    match v
    case Null => "null"
    case Bool(b) => if b then "true" else "false"
    case String(t) => Quote(t)
  }

  /** `r` is a successful parse of `v` that stops at `n`. */
  predicate Reads(r: Result<(Value, nat), string>, v: Value, n: nat)
  {
    r.Success? && r.value.0 == v && r.value.1 == n
  }

  /** parseValue reads the text of a literal or a string back, whatever
      follows it. */
  lemma ScalarRoundTrip(v: Value, s: string, pos: nat, conv: NumberConv)
    requires v.Null? || v.Bool? || v.String?
    requires pos <= |s| && LiteralAt(s, pos, ScalarText(v))
    ensures Reads(ParseValue(s, pos, conv), v, pos + |ScalarText(v)|)
  {
    assert s[pos] == ScalarText(v)[0];
    assert SkipWS(s, pos) == pos;
    if v.String? {
      QuoteRoundTrip(s, pos, v.str);
    }
  }

  /** At a character that is not white space, `Match` looks at that very
      character. */
  lemma MatchAt(s: string, q: nat, c: char)
    requires q < |s| && !IsSpace(s[q])
    ensures Match(s, q, c) == if s[q] == c then Some(q + 1) else None
  {
    assert SkipWS(s, q) == q;
  }

  // -------------------------------------------------------------- arrays

  /** `[]` is the empty array. */
  lemma EmptyArrayStep(s: string, pos: nat, conv: NumberConv)
    requires pos + 1 < |s| && s[pos] == '[' && s[pos + 1] == ']'
    ensures Reads(ParseValue(s, pos, conv), Array([]), pos + 2)
  {
    MatchAt(s, pos, ArrayOpen);
    MatchAt(s, pos + 1, ']');
  }

  /** `items` can be read one after the other from `pos` on, each value
      followed, after optional white space, by `,` and the last one by `]`. */
  predicate Laid(s: string, pos: nat, items: seq<Value>, conv: NumberConv)
    decreases |items|
  {
    && |items| > 0 && pos <= |s|
    && var r := ParseValue(s, pos, conv);
    && r.Success? && r.value.0 == items[0]
    && var e := SkipWS(s, r.value.1);
    && e < |s|
    && if |items| == 1 then s[e] == ']'
       else s[e] == ',' && Laid(s, e + 1, items[1..], conv)
  }

  /** Where laid-out items end, just after the closing bracket. */
  function LaidEnd(s: string, pos: nat, items: seq<Value>, conv: NumberConv): nat
    requires Laid(s, pos, items, conv)
    decreases |items|
  {
    var e := SkipWS(s, ParseValue(s, pos, conv).value.1);
    if |items| == 1 then e + 1 else LaidEnd(s, e + 1, items[1..], conv)
  }

  /** One turn of the element loop after a value read up to `q` and the
      white space after it, up to `e`. */
  lemma ElementsTurn(s: string, pos: nat, acc: seq<Value>, conv: NumberConv, v: Value, q: nat, e: nat)
    requires pos <= |s| && ParseValue(s, pos, conv) == Success((v, q))
    requires e == SkipWS(s, q) && e < |s| && (s[e] == ']' || s[e] == ',')
    ensures s[e] == ']' ==> Elements(s, pos, acc, conv) == Success((Array(acc + [v]), e + 1))
    ensures s[e] == ',' ==> Elements(s, pos, acc, conv) == Elements(s, e + 1, acc + [v], conv)
  {
  }

  /** Unfolding `Laid` one item: the first value ends at `q`, and either
      the array closes after the white space there or the rest is laid out
      after the comma. */
  lemma LaidUnfold(s: string, pos: nat, items: seq<Value>, conv: NumberConv, q: nat, e: nat)
    requires Laid(s, pos, items, conv) && q == ParseValue(s, pos, conv).value.1
    requires e == SkipWS(s, q)
    ensures ParseValue(s, pos, conv) == Success((items[0], q)) && e < |s|
    ensures |items| == 1 ==> s[e] == ']' && LaidEnd(s, pos, items, conv) == e + 1
    ensures |items| > 1 ==> && s[e] == ','
                            && Laid(s, e + 1, items[1..], conv)
                            && LaidEnd(s, pos, items, conv) == LaidEnd(s, e + 1, items[1..], conv)
  {
  }

  /** The element loop reads laid-out items in order and appends them to
      what it has. */
  lemma {:induction false} ElementsLaid(s: string, pos: nat, items: seq<Value>, acc: seq<Value>,
                                        conv: NumberConv)
    requires Laid(s, pos, items, conv)
    ensures Reads(Elements(s, pos, acc, conv), Array(acc + items), LaidEnd(s, pos, items, conv))
    decreases |items|
  {
    var q := ParseValue(s, pos, conv).value.1;
    var e := SkipWS(s, q);
    LaidUnfold(s, pos, items, conv, q, e);
    ElementsTurn(s, pos, acc, conv, items[0], q, e);
    AppendFirst(acc, items);
    if |items| > 1 {
      ElementsLaid(s, e + 1, items[1..], acc + [items[0]], conv);
    }
  }

  /** Appending the first item and then the rest is appending them all. */
  lemma AppendFirst<T>(acc: seq<T>, items: seq<T>)
    requires items != []
    ensures acc + [items[0]] + items[1..] == acc + items
    ensures |items| == 1 ==> acc + [items[0]] == acc + items
  {
    assert items == [items[0]] + items[1..];
  }

  /** No value begins with a closing bracket or brace: a successful value
      parse starts at a character that is neither. */
  lemma ValueNotAtClose(s: string, q: nat, conv: NumberConv)
    requires q <= |s| && ParseValue(s, q, conv).Success?
    ensures SkipWS(s, q) < |s| && s[SkipWS(s, q)] != ']' && s[SkipWS(s, q)] != '}'
  {
  }

  /** An opening bracket, after optional white space, followed by laid-out
      items is the array of those items. */
  lemma ArrayLaid(s: string, pos: nat, items: seq<Value>, conv: NumberConv)
    requires pos <= |s| && SkipWS(s, pos) < |s| && s[SkipWS(s, pos)] == '['
    requires Laid(s, SkipWS(s, pos) + 1, items, conv)
    ensures Reads(ParseValue(s, pos, conv), Array(items), LaidEnd(s, SkipWS(s, pos) + 1, items, conv))
  {
    var p := SkipWS(s, pos);
    MatchAt(s, p, ArrayOpen);
    ValueNotAtClose(s, p + 1, conv);
    ElementsLaid(s, p + 1, items, [], conv);
    assert [] + items == items;
  }

  /** The text `[1]`, which the parser as written rejects, reads as the
      one-element array of the converted number. */
  lemma OneElementArray(conv: NumberConv, x: real)
    requires conv("1") == Some(x)
    ensures Parse("[1]", conv) == Success(Array([Number(x)]))
  {
    var s := "[1]";
    assert SkipWS(s, 1) == 1 && SkipWS(s, 2) == 2;
    assert Digits(s, 1) == 2;
    assert NumberEnd(s, 1) == 2;
    assert s[1..2] == "1";
    assert ParseValue(s, 1, conv) == Success((Number(x), 2));
    assert Laid(s, 1, [Number(x)], conv);
    ArrayLaid(s, 0, [Number(x)], conv);
    assert SkipWS(s, 3) == 3;
  }

  /** White space around an element, as in `[ 1 ]`, is skipped on both
      sides of it. */
  lemma SpacedArray(conv: NumberConv, x: real)
    requires conv("1") == Some(x)
    ensures Parse("[ 1 ]", conv) == Success(Array([Number(x)]))
  {
    var s := "[ 1 ]";
    assert SkipWS(s, 1) == 2 && SkipWS(s, 3) == 4;
    assert Digits(s, 2) == 3;
    assert NumberEnd(s, 2) == 3;
    assert s[2..3] == "1";
    assert ParseValue(s, 1, conv) == Success((Number(x), 3));
    assert Laid(s, 1, [Number(x)], conv);
    ArrayLaid(s, 0, [Number(x)], conv);
    assert SkipWS(s, 5) == 5;
  }

  // ------------------------------------------------------------- objects

  /** The map built from key/value pairs in order, starting from `acc`,
      when a repeated key keeps its first value. */
  function FirstWins(acc: map<string, Value>, ps: seq<(string, Value)>): map<string, Value>
    decreases |ps|
  {
    if ps == [] then acc
    else FirstWins(if ps[0].0 in acc then acc else acc[ps[0].0 := ps[0].1], ps[1..])
  }

  /** The keys of `FirstWins(acc, ps)` are those of `acc` and of the pairs;
      a key of `acc` keeps its value; any other key has the value of its
      first pair. */
  lemma {:induction false} FirstWinsSpec(acc: map<string, Value>, ps: seq<(string, Value)>, k: string)
    ensures k in FirstWins(acc, ps) <==> k in acc || exists i | 0 <= i < |ps| :: ps[i].0 == k
    ensures k in acc ==> FirstWins(acc, ps)[k] == acc[k]
    ensures forall i | 0 <= i < |ps| && ps[i].0 == k && k !in acc &&
                       (forall j | 0 <= j < i :: ps[j].0 != k) ::
              k in FirstWins(acc, ps) && FirstWins(acc, ps)[k] == ps[i].1
    decreases |ps|
  {
    if ps != [] {
      var acc' := if ps[0].0 in acc then acc else acc[ps[0].0 := ps[0].1];
      FirstWinsSpec(acc', ps[1..], k);
      if exists i | 0 <= i < |ps| :: ps[i].0 == k {
        var i :| 0 <= i < |ps| && ps[i].0 == k;
        if i > 0 {
          assert ps[1..][i - 1].0 == k;
        }
      }
      forall i | 0 <= i < |ps| && ps[i].0 == k && k !in acc && (forall j | 0 <= j < i :: ps[j].0 != k)
        ensures k in FirstWins(acc, ps) && FirstWins(acc, ps)[k] == ps[i].1
      {
        if i > 0 {
          assert ps[1..][i - 1] == ps[i];
          forall j | 0 <= j < i - 1 ensures ps[1..][j].0 != k {
            assert ps[1..][j] == ps[j + 1];
          }
        }
      }
    }
  }

  /** The first pair is added unless its key is already there. */
  lemma FirstWinsCons(acc: map<string, Value>, ps: seq<(string, Value)>)
    requires ps != []
    ensures FirstWins(acc, ps) == FirstWins(if ps[0].0 in acc then acc else acc[ps[0].0 := ps[0].1], ps[1..])
    ensures |ps| == 1 ==> FirstWins(acc, ps) == (if ps[0].0 in acc then acc else acc[ps[0].0 := ps[0].1])
  {
  }

  /** `{}` is the empty object. */
  lemma EmptyObjectStep(s: string, pos: nat, conv: NumberConv)
    requires pos + 1 < |s| && s[pos] == '{' && s[pos + 1] == '}'
    ensures Reads(ParseValue(s, pos, conv), Object(map[]), pos + 2)
  {
    MatchAt(s, pos, '{');
    MatchAt(s, pos + 1, '}');
  }

  /** `ps` can be read one after the other from `pos` on, each member
      (key, colon, value) followed, after optional white space, by `,` and
      the last one by `}`. */
  predicate PairsLaid(s: string, pos: nat, ps: seq<(string, Value)>, conv: NumberConv)
    decreases |ps|
  {
    && |ps| > 0 && pos <= |s|
    && var r := ParseMember(s, pos, conv);
    && r.Success? && r.value.0 == ps[0].0 && r.value.1 == ps[0].1
    && var e := SkipWS(s, r.value.2);
    && e < |s|
    && if |ps| == 1 then s[e] == '}'
       else s[e] == ',' && PairsLaid(s, e + 1, ps[1..], conv)
  }

  /** Where laid-out members end, just after the closing brace. */
  function PairsEnd(s: string, pos: nat, ps: seq<(string, Value)>, conv: NumberConv): nat
    requires PairsLaid(s, pos, ps, conv)
    decreases |ps|
  {
    var e := SkipWS(s, ParseMember(s, pos, conv).value.2);
    if |ps| == 1 then e + 1 else PairsEnd(s, e + 1, ps[1..], conv)
  }

  /** One member: a key read up to `q`, a colon after optional white space,
      and a value read up to `q2`. */
  lemma MemberStep(s: string, pos: nat, conv: NumberConv, key: string, q: nat, item: Value, q2: nat)
    requires pos <= |s| && ReadsText(ParseString(s, pos), key, q)
    requires q <= |s| && SkipWS(s, q) < |s| && s[SkipWS(s, q)] == ':'
    requires Reads(ParseValue(s, SkipWS(s, q) + 1, conv), item, q2)
    ensures ParseMember(s, pos, conv) == Success((key, item, q2))
  {
  }

  /** One turn of the member loop after a member read up to `q` and the
      white space after it, up to `e`. */
  lemma MembersTurn(s: string, pos: nat, acc: map<string, Value>, conv: NumberConv,
                    key: string, v: Value, q: nat, e: nat)
    requires pos <= |s| && ParseMember(s, pos, conv) == Success((key, v, q))
    requires e == SkipWS(s, q) && e < |s| && (s[e] == '}' || s[e] == ',')
    ensures var acc' := if key in acc then acc else acc[key := v];
            (s[e] == '}' ==> Members(s, pos, acc, conv) == Success((Object(acc'), e + 1))) &&
            (s[e] == ',' ==> Members(s, pos, acc, conv) == Members(s, e + 1, acc', conv))
  {
  }

  /** The member loop reads laid-out members into the map it has, the first
      value of a repeated key winning. */
  lemma {:induction false} MembersLaid(s: string, pos: nat, ps: seq<(string, Value)>,
                                       acc: map<string, Value>, conv: NumberConv)
    requires PairsLaid(s, pos, ps, conv)
    ensures Reads(Members(s, pos, acc, conv), Object(FirstWins(acc, ps)), PairsEnd(s, pos, ps, conv))
    decreases |ps|
  {
    var q := ParseMember(s, pos, conv).value.2;
    var e := SkipWS(s, q);
    var acc' := if ps[0].0 in acc then acc else acc[ps[0].0 := ps[0].1];
    FirstWinsCons(acc, ps);
    if |ps| == 1 {
      assert Members(s, pos, acc, conv) == Success((Object(acc'), e + 1)) by {
        MembersTurn(s, pos, acc, conv, ps[0].0, ps[0].1, q, e);
      }
    } else {
      assert Members(s, pos, acc, conv) == Members(s, e + 1, acc', conv) by {
        MembersTurn(s, pos, acc, conv, ps[0].0, ps[0].1, q, e);
      }
      MembersLaid(s, e + 1, ps[1..], acc', conv);
    }
  }

  /** An opening brace, after optional white space, followed by laid-out
      members is the object of their first values. */
  lemma ObjectLaid(s: string, pos: nat, ps: seq<(string, Value)>, conv: NumberConv)
    requires pos <= |s| && SkipWS(s, pos) < |s| && s[SkipWS(s, pos)] == '{'
    requires PairsLaid(s, SkipWS(s, pos) + 1, ps, conv)
    ensures Reads(ParseValue(s, pos, conv), Object(FirstWins(map[], ps)), PairsEnd(s, SkipWS(s, pos) + 1, ps, conv))
  {
    var p := SkipWS(s, pos);
    MatchAt(s, p, '{');
    MembersLaid(s, p + 1, ps, map[], conv);
  }

  /** White space before the colon and the closing brace, as in
      `{"a" : 1 }`, is skipped too. */
  lemma SpacedObject(conv: NumberConv, x: real)
    requires conv("1") == Some(x)
    ensures Parse("{\"a\" : 1 }", conv) == Success(Object(map["a" := Number(x)]))
  {
    var s := "{\"a\" : 1 }";
    assert SkipWS(s, 1) == 1 && SkipWS(s, 4) == 5 && SkipWS(s, 6) == 7 && SkipWS(s, 8) == 9;
    assert StringBody(s, 3, "a") == Success(("a", 4));
    assert s[2] == 'a' && "" + [s[2]] == "a";
    assert ParseString(s, 1) == Success(("a", 4));
    assert Digits(s, 7) == 8;
    assert NumberEnd(s, 7) == 8;
    assert s[7..8] == "1";
    assert ParseValue(s, 6, conv) == Success((Number(x), 8));
    MemberStep(s, 1, conv, "a", 4, Number(x), 8);
    assert PairsLaid(s, 1, [("a", Number(x))], conv);
    ObjectLaid(s, 0, [("a", Number(x))], conv);
    assert SkipWS(s, 10) == 10;
  }
}

=== FILE: manifest_loader.dfy ===
/** The manifest loader: from the text of a manifest file to typed
    animation descriptions. Reading is permissive: a missing field or a
    field of the wrong type falls back to its default, and an animation
    entry or frame rectangle that is not an object is skipped. */
module ManifestLoader {
  import opened Wrappers
  import opened Json
  import opened ManifestTypes
  import JsonParser
  import CInt

  /** The outcome of a load: whether it succeeded, the manifest as far as it
      was filled in, and the error message, if one was written. */
  datatype Loaded = Loaded(ok: bool, manifest: Manifest, error: Option<string>)

  const ReadFailed := "Failed to read file: "
  const ParseFailed := "Failed to parse JSON: "

  /** The base path with a directory separator at its end: `'/'` is appended
      unless the path already ends in `'/'` or `'\\'`; an empty path stays
      empty. */
  function NormalizeBasePath(p: string): (r: string)
    ensures r == [] <==> p == []
    ensures r != [] ==> r[|r| - 1] == '/' || r[|r| - 1] == '\\'
    ensures p <= r && |r| <= |p| + 1
    ensures p != [] && (p[|p| - 1] == '/' || p[|p| - 1] == '\\') ==> r == p
  {
    if p == [] then p
    else if p[|p| - 1] == '/' || p[|p| - 1] == '\\' then p
    else p + ['/']
  }

  /** The "defaults" block. A present field is read through the value's raw
      number or bool slot whatever its kind, so a non-numeric width reads as
      0 and a non-Bool `loop` as false; only `layout` checks for a string. */
  function ReadDefaults(d: map<string, Value>): (r: Defaults)
    ensures "frameWidth" !in d ==> r.frameWidth == FreshDefaults().frameWidth
    ensures "frameWidth" in d ==> r.frameWidth == CInt.TruncToInt(RawNumber(d["frameWidth"]))
    ensures "frameHeight" !in d ==> r.frameHeight == FreshDefaults().frameHeight
    ensures "frameHeight" in d ==> r.frameHeight == CInt.TruncToInt(RawNumber(d["frameHeight"]))
    ensures "fps" !in d ==> r.fps == FreshDefaults().fps
    ensures "fps" in d ==> r.fps == CInt.TruncToInt(RawNumber(d["fps"]))
    ensures r.loop == ("loop" in d ==> RawBool(d["loop"]))
    ensures r.layout == if "layout" in d && d["layout"].String? then d["layout"].str else FreshDefaults().layout
    ensures !r.isMovement
  {
    var fd := FreshDefaults();
    Defaults(
      if "frameWidth" in d then CInt.TruncToInt(RawNumber(d["frameWidth"])) else fd.frameWidth,
      if "frameHeight" in d then CInt.TruncToInt(RawNumber(d["frameHeight"])) else fd.frameHeight,
      if "fps" in d then CInt.TruncToInt(RawNumber(d["fps"])) else fd.fps,
      if "loop" in d then RawBool(d["loop"]) else fd.loop,
      if "layout" in d && d["layout"].String? then d["layout"].str else fd.layout,
      fd.isMovement)
  }

  /** One explicit frame rectangle: integer fields default to 0 and the
      duration to 100 ms. */
  function ReadRect(item: Value): (r: FrameRect)
    ensures item == Object(map[]) ==> r == DefaultRect
    ensures r.x == GetInt(item, "x", DefaultRect.x) && r.y == GetInt(item, "y", DefaultRect.y)
    ensures r.w == GetInt(item, "w", DefaultRect.w) && r.h == GetInt(item, "h", DefaultRect.h)
    ensures r.durationMS == GetInt(item, "durationMS", DefaultRect.durationMS)
  {
    FrameRect(GetInt(item, "x", 0), GetInt(item, "y", 0), GetInt(item, "w", 0),
              GetInt(item, "h", 0), GetInt(item, "durationMS", 100))
  }

  /** The "rects" array: one rectangle per object item, in order; every
      other item is skipped. */
  function ReadRects(items: seq<Value>): (r: seq<FrameRect>)
    ensures |r| <= |items|
  {
    if items == [] then []
    else (if items[0].Object? then [ReadRect(items[0])] else []) + ReadRects(items[1..])
  }

  /** One animation entry, keyed by `name`: unset numbers are -1, `loop`
      defaults to true and `layout` to "row"; `rects` is read when it is an
      array. The movement flag is never read and stays false. */
  function ReadDesc(name: string, val: Value): (r: AnimationDesc)
    ensures r.name == name && !r.isMovement
    ensures val == Object(map[]) ==> r == LoaderDesc(name)
    ensures r.frames == GetInt(val, "frames", Unset) && r.fps == GetInt(val, "fps", Unset)
    ensures r.frameWidth == GetInt(val, "frameWidth", Unset)
    ensures r.frameHeight == GetInt(val, "frameHeight", Unset)
    ensures r.rows == GetInt(val, "rows", Unset) && r.cols == GetInt(val, "cols", Unset)
    ensures r.path == GetString(val, "path", "") && r.layout == GetString(val, "layout", "row")
    ensures r.loop == GetBool(val, "loop", true)
    ensures GetArray(val, "rects").None? ==> r.rects == []
    ensures GetArray(val, "rects").Some? ==> r.rects == ReadRects(GetArray(val, "rects").value)
  {
    AnimationDesc(
      name,
      GetString(val, "path", ""),
      GetInt(val, "frames", Unset),
      GetInt(val, "frameWidth", Unset),
      GetInt(val, "frameHeight", Unset),
      GetInt(val, "rows", Unset),
      GetInt(val, "cols", Unset),
      GetInt(val, "fps", Unset),
      GetBool(val, "loop", true),
      GetString(val, "layout", "row"),
      match GetArray(val, "rects") case Some(items) => ReadRects(items) case None => [],
      false)
  }

  /** The "animations" object: one description per entry whose value is an
      object, stored under the entry's own name. */
  function ReadAnimations(aims: map<string, Value>): (r: map<string, AnimationDesc>)
    ensures forall name :: name in r <==> name in aims && aims[name].Object?
    ensures forall name | name in r :: r[name] == ReadDesc(name, aims[name]) && r[name].name == name
  {
    map name | name in aims && aims[name].Object? :: ReadDesc(name, aims[name])
  }

  /** The manifest read from an object root. */
  function FromRoot(root: Value): (m: Manifest)
    requires root.Object?
    ensures m.version == (match Get(root, "version")
                          case Some(Number(n)) => CInt.TruncToInt(n)
                          case _ => EmptyManifest().version)
    ensures m.basePath == NormalizeBasePath(GetString(root, "basePath", ""))
    ensures GetObject(root, "defaults").None? ==> m.defaults == FreshDefaults()
    ensures GetObject(root, "animations").None? ==> m.animations == map[]
    ensures GetObject(root, "defaults").Some? ==> m.defaults == ReadDefaults(GetObject(root, "defaults").value)
    ensures GetObject(root, "animations").Some? ==>
              m.animations == ReadAnimations(GetObject(root, "animations").value)
  {
    Manifest(
      match Get(root, "version") case Some(Number(n)) => CInt.TruncToInt(n) case _ => 1,
      NormalizeBasePath(GetString(root, "basePath", "")),
      match GetObject(root, "defaults") case Some(d) => ReadDefaults(d) case None => FreshDefaults(),
      match GetObject(root, "animations") case Some(a) => ReadAnimations(a) case None => map[])
  }

  /** loadManifest, from the file's text on (reading the file is not
      modelled; a missing file reads as empty text). Empty text and a text
      that does not parse to an object fail with the matching message and
      the default manifest; otherwise the load succeeds exactly when at
      least one animation entry was read. */
  function LoadManifest(path: string, text: string, conv: JsonParser.NumberConv): (r: Loaded)
    ensures text == [] ==> r == Loaded(false, EmptyManifest(), Some(ReadFailed + path))
    ensures text != [] && JsonParser.Parse(text, conv).Failure? ==>
              r == Loaded(false, EmptyManifest(), Some(ParseFailed + JsonParser.Parse(text, conv).error))
    ensures text != [] && JsonParser.Parse(text, conv).Success? && !JsonParser.Parse(text, conv).value.Object? ==>
              r == Loaded(false, EmptyManifest(), Some(ParseFailed))
    ensures r.ok <==> text != [] && JsonParser.Parse(text, conv).Success? &&
                      JsonParser.Parse(text, conv).value.Object? && r.manifest.animations != map[]
    ensures r.error.None? <==> text != [] && JsonParser.Parse(text, conv).Success? &&
                               JsonParser.Parse(text, conv).value.Object?
    ensures r.error.None? ==> r.manifest == FromRoot(JsonParser.Parse(text, conv).value)
    ensures forall name | name in r.manifest.animations ::
              r.manifest.animations[name].name == name && !r.manifest.animations[name].isMovement
  {
    if text == [] then Loaded(false, EmptyManifest(), Some(ReadFailed + path))
    else
      match JsonParser.Parse(text, conv)
      case Failure(e) => Loaded(false, EmptyManifest(), Some(ParseFailed + e))
      case Success(root) =>
        if !root.Object? then Loaded(false, EmptyManifest(), Some(ParseFailed))
        else
          var m := FromRoot(root);
          Loaded(m.animations != map[], m, None)
  }

  /** NormalizeDesc: every fps or frame size at or below zero takes the
      fallback, and so does an empty layout; nothing else changes. */
  function NormalizeDesc(d: AnimationDesc, def: Defaults): (r: AnimationDesc)
    ensures r.fps == if d.fps > 0 then d.fps else def.fps
    ensures r.frameWidth == if d.frameWidth > 0 then d.frameWidth else def.frameWidth
    ensures r.frameHeight == if d.frameHeight > 0 then d.frameHeight else def.frameHeight
    ensures r.layout == if d.layout == [] then def.layout else d.layout
    ensures r == d.(fps := r.fps, frameWidth := r.frameWidth, frameHeight := r.frameHeight, layout := r.layout)
  {
    d.(fps := if d.fps <= 0 then def.fps else d.fps,
       frameWidth := if d.frameWidth <= 0 then def.frameWidth else d.frameWidth,
       frameHeight := if d.frameHeight <= 0 then def.frameHeight else d.frameHeight,
       layout := if d.layout == [] then def.layout else d.layout)
  }

  // ----------------------------------------------------------- properties

  /** Normalising twice is normalising once. */
  lemma NormalizeDescIdempotent(d: AnimationDesc, def: Defaults)
    ensures NormalizeDesc(NormalizeDesc(d, def), def) == NormalizeDesc(d, def)
  {
  }

  /** Against positive fallbacks with a layout, a normalised description has
      a positive rate and frame size and a layout; in particular against the
      default-constructed fallbacks. */
  lemma NormalizedIsComplete(d: AnimationDesc, def: Defaults)
    requires def.fps > 0 && def.frameWidth > 0 && def.frameHeight > 0 && def.layout != []
    ensures var n := NormalizeDesc(d, def);
            n.fps > 0 && n.frameWidth > 0 && n.frameHeight > 0 && n.layout != []
  {
  }

  /** Every object entry of a manifest's "animations" block is loaded, under
      its own name, as the description read from it, and the load succeeds. */
  lemma EntryLoads(path: string, text: string, conv: JsonParser.NumberConv, name: string)
    requires text != [] && JsonParser.Parse(text, conv).Success?
    requires var root := JsonParser.Parse(text, conv).value;
             root.Object? && GetObject(root, "animations").Some? &&
             name in GetObject(root, "animations").value &&
             GetObject(root, "animations").value[name].Object?
    ensures var r := LoadManifest(path, text, conv);
            var entries := GetObject(JsonParser.Parse(text, conv).value, "animations").value;
            r.ok && name in r.manifest.animations &&
            r.manifest.animations[name] == ReadDesc(name, entries[name])
  {
  }

  /** Normalising a base path twice is normalising it once. */
  lemma BasePathIdempotent(p: string)
    ensures NormalizeBasePath(NormalizeBasePath(p)) == NormalizeBasePath(p)
  {
  }

  /** An array of objects yields one rectangle per item, in order; an array
      without objects yields none. */
  lemma {:induction false} ReadRectsItems(items: seq<Value>)
    ensures (forall i | 0 <= i < |items| :: items[i].Object?) ==>
              |ReadRects(items)| == |items| &&
              forall i | 0 <= i < |items| :: ReadRects(items)[i] == ReadRect(items[i])
    ensures (forall i | 0 <= i < |items| :: !items[i].Object?) ==> ReadRects(items) == []
  {
    if items != [] {
      ReadRectsItems(items[1..]);
      assert forall i | 1 <= i < |items| :: items[1..][i - 1] == items[i];
    }
  }

  /** Skipped items contribute nothing: reading a concatenation of rect
      arrays is concatenating the readings. */
  lemma {:induction false} ReadRectsAppend(a: seq<Value>, b: seq<Value>)
    ensures ReadRects(a + b) == ReadRects(a) + ReadRects(b)
  {
    if a == [] {
      assert a + b == b;
    } else {
      var head := if a[0].Object? then [ReadRect(a[0])] else [];
      assert (a + b)[0] == a[0] && (a + b)[1..] == a[1..] + b;
      assert ReadRects(a + b) == head + ReadRects(a[1..] + b);
      ReadRectsAppend(a[1..], b);
      assert ReadRects(a) == head + ReadRects(a[1..]);
    }
  }
}

=== FILE: manifest_types.dfy ===
/** The records shared by the manifest loader and the animation engine. The
    loader's header and the engine's header each declare a frame rectangle,
    an animation description, a set of defaults and a manifest; the two
    copies differ only in a few default values and in the movement flag,
    so they are declared once here, with one constructor per set of
    default values. */
module ManifestTypes {

  /** An integer rectangle on the sprite sheet or on screen (`SDL_Rect`). */
  datatype Rect = Rect(x: int, y: int, w: int, h: int)

  /** One frame of an animation: where on the sheet, and for how many
      milliseconds it stays on screen. */
  datatype Frame = Frame(src: Rect, duration: int)

  /** An explicitly listed frame rectangle of a manifest entry. */
  datatype FrameRect = FrameRect(x: int, y: int, w: int, h: int, durationMS: int)

  /** A frame rectangle with nothing filled in: zero rectangle, 100 ms. */
  const DefaultRect := FrameRect(0, 0, 0, 0, 100)

  /** The value of an integer field that the manifest left unset. */
  const Unset := -1

  /** One animation entry of the manifest. Numeric fields at or below zero
      mean "not given"; `isMovement` says whether playing the animation
      moves the pet. */
  datatype AnimationDesc = AnimationDesc(
    name: string,
    path: string,
    frames: int,
    frameWidth: int,
    frameHeight: int,
    rows: int,
    cols: int,
    fps: int,
    loop: bool,
    layout: string,
    rects: seq<FrameRect>,
    isMovement: bool)

  /** A default-constructed description as the loader declares it: every
      number unset, looping, laid out in a row, not a movement. */
  function LoaderDesc(name: string): (d: AnimationDesc)
    ensures d.name == name && d.path == [] && d.rects == []
    ensures d.frames < 0 && d.frameWidth < 0 && d.frameHeight < 0 && d.rows < 0 && d.cols < 0 && d.fps < 0
    ensures d.loop && d.layout == "row" && !d.isMovement
  {
    AnimationDesc(name, "", Unset, Unset, Unset, Unset, Unset, Unset, true, "row", [], false)
  }

  /** A default-constructed description as the engine declares it: the
      same, except that the layout is left empty. */
  function EngineDesc(name: string): (d: AnimationDesc)
    ensures d == LoaderDesc(name).(layout := "")
  {
    AnimationDesc(name, "", Unset, Unset, Unset, Unset, Unset, Unset, true, "", [], false)
  }

  /** The manifest-wide fallbacks for unset description fields. */
  datatype Defaults = Defaults(
    frameWidth: int,
    frameHeight: int,
    fps: int,
    loop: bool,
    layout: string,
    isMovement: bool)

  /** Default-constructed fallbacks: 48x48 frames at 8 fps, looping, in a
      row. Every fallback is usable: sizes and rate are positive and there
      is a layout. */
  function FreshDefaults(): (d: Defaults)
    ensures d.frameWidth == 48 && d.frameHeight == 48 && d.fps == 8
    ensures d.frameWidth > 0 && d.frameHeight > 0 && d.fps > 0 && d.layout != []
    ensures d.loop && !d.isMovement
  {
    Defaults(48, 48, 8, true, "row", false)
  }

  /** A parsed manifest: animation descriptions by name. */
  datatype Manifest = Manifest(
    version: int,
    basePath: string,
    defaults: Defaults,
    animations: map<string, AnimationDesc>)

  /** A default-constructed manifest: version 1, no base path, fresh
      fallbacks, no animations. */
  function EmptyManifest(): (m: Manifest)
    ensures m.version == 1 && m.basePath == [] && m.animations == map[]
    ensures m.defaults == FreshDefaults()
  {
    Manifest(1, "", FreshDefaults(), map[])
  }
}

=== FILE: timers.dfy ===
/** The stopwatch-plus-interval timer. Time points and durations are exact
    reals in seconds, and every operation that reads the clock takes the
    current time `now` as a parameter. */
module Timers {

  /** The firing tolerance of the interval loop (`1e-7f`). */
  const Epsilon: real := 0.0000001

  /** The timer's state. `accumulated` is the running time banked by earlier
      pauses; `startPoint` is where the current running stretch began. The
      interval mode fires every `intervalSec` seconds of time fed to
      `Update`, with `intervalAccum` the time fed since the last firing. */
  datatype Timer = Timer(
    running: bool,
    paused: bool,
    accumulated: real,
    startPoint: real,
    lastTickPoint: real,
    lapPoint: real,
    lastUpdatePoint: real,
    pausePoint: real,
    intervalSec: real,
    intervalAccum: real,
    repeat: bool)

  /** A timer that has never been started: everything zero or false. */
  const Idle := Timer(false, false, 0.0, 0.0, 0.0, 0.0, 0.0, 0.0, 0.0, 0.0, false)

  function Max0(x: real): real
  {
    if x < 0.0 then 0.0 else x
  }

  /** start: running from `now` with nothing banked and nothing accumulated
      towards the interval. The interval length and mode are kept. */
  function Start(t: Timer, now: real): (r: Timer)
    ensures r.running && !r.paused
    ensures Elapsed(r, now) == 0.0
    ensures r.intervalAccum == 0.0
    ensures r.intervalSec == t.intervalSec && r.repeat == t.repeat
  {
    t.(running := true, paused := false, accumulated := 0.0,
       startPoint := now, lastTickPoint := now, lapPoint := now,
       lastUpdatePoint := now, intervalAccum := 0.0)
  }

  /** stop: not running, not paused, nothing banked. The interval length and
      mode are kept, and so are the time points. */
  function Stop(t: Timer): (r: Timer)
    ensures !r.running && !r.paused
    ensures forall now :: Elapsed(r, now) == 0.0
    ensures r.intervalAccum == 0.0
    ensures r.intervalSec == t.intervalSec && r.repeat == t.repeat
    ensures r.startPoint == t.startPoint && r.lapPoint == t.lapPoint
  {
    t.(running := false, paused := false, accumulated := 0.0, intervalAccum := 0.0)
  }

  /** reset: the elapsed time restarts from zero at `now`, whatever the
      state; the running and paused flags are kept. Only a running,
      unpaused timer moves its time points to `now`. */
  function Reset(t: Timer, now: real): (r: Timer)
    ensures r.running == t.running && r.paused == t.paused
    ensures Elapsed(r, now) == 0.0
    ensures r.intervalAccum == 0.0 && r.intervalSec == t.intervalSec
    ensures !(t.running && !t.paused) ==>
              r.startPoint == t.startPoint && r.lapPoint == t.lapPoint &&
              r.lastTickPoint == t.lastTickPoint && r.lastUpdatePoint == t.lastUpdatePoint
  {
    var r := t.(accumulated := 0.0, intervalAccum := 0.0);
    if t.running && !t.paused then
      r.(startPoint := now, lastTickPoint := now, lapPoint := now, lastUpdatePoint := now)
    else r
  }

  /** pause: only a running, unpaused timer pauses; it banks the time run
      since `startPoint`, so the reading at `now` does not jump. */
  function Pause(t: Timer, now: real): (r: Timer)
    ensures t.running && !t.paused ==> r.paused && r.running && r.pausePoint == now
    ensures !(t.running && !t.paused) ==> r == t
    ensures Elapsed(r, now) == Elapsed(t, now)
  {
    if t.running && !t.paused then
      t.(paused := true, pausePoint := now, accumulated := t.accumulated + (now - t.startPoint))
    else t
  }

  /** resume: only a paused running timer resumes; the stretch restarts at
      `now`, so the banked reading carries over unchanged. */
  function Resume(t: Timer, now: real): (r: Timer)
    ensures t.running && t.paused ==> r.running && !r.paused && r.startPoint == now
    ensures !(t.running && t.paused) ==> r == t
    ensures Elapsed(r, now) == Elapsed(t, now)
  {
    if t.running && t.paused then
      t.(paused := false, startPoint := now, lastTickPoint := now,
         lapPoint := now, lastUpdatePoint := now)
    else t
  }

  /** currentElapsedUnsafe: the banked time, plus the current stretch while
      running and unpaused. */
  function Elapsed(t: Timer, now: real): (r: real)
    ensures !t.running || t.paused ==> r == t.accumulated
    ensures t.running && !t.paused ==> r - t.accumulated == now - t.startPoint
  {
    if !t.running || t.paused then t.accumulated
    else t.accumulated + (now - t.startPoint)
  }

  /** tick: the time since the previous tick, never negative; zero (and no
      change) when stopped or paused. */
  function Tick(t: Timer, now: real): (r: (Timer, real))
    ensures r.1 >= 0.0
    ensures !t.running || t.paused ==> r == (t, 0.0)
    ensures t.running && !t.paused ==>
              r.0 == t.(lastTickPoint := now) &&
              (now >= t.lastTickPoint ==> r.1 == now - t.lastTickPoint)
  {
    if !t.running || t.paused then (t, 0.0)
    else (t.(lastTickPoint := now), Max0(now - t.lastTickPoint))
  }

  /** lap: the time since the previous lap, never negative. Unlike `Tick` it
      does not look at the running flag. */
  function Lap(t: Timer, now: real): (r: (Timer, real))
    ensures r.1 >= 0.0
    ensures r.0 == t.(lapPoint := now)
    ensures now >= t.lapPoint ==> r.1 == now - t.lapPoint
  {
    (t.(lapPoint := now), Max0(now - t.lapPoint))
  }

  /** setInterval: a new interval length and mode, counted from zero. */
  function SetInterval(t: Timer, seconds: real, repeat: bool, now: real): (r: Timer)
    ensures r.intervalSec == seconds && r.repeat == repeat
    ensures r.intervalAccum == 0.0 && r.lastUpdatePoint == now
    ensures r.running == t.running && r.paused == t.paused
  {
    t.(intervalSec := seconds, repeat := repeat, intervalAccum := 0.0, lastUpdatePoint := now)
  }

  /** clearInterval: interval length zero, which switches firing off. */
  function ClearInterval(t: Timer): (r: Timer)
    ensures r.intervalSec == 0.0 && r.intervalAccum == 0.0
    ensures r.running == t.running && r.paused == t.paused
  {
    t.(intervalSec := 0.0, intervalAccum := 0.0)
  }

  /** The firing loop of a repeating timer: whole intervals are taken off
      the accumulator while it is within `Epsilon` of one interval. The
      loop stops with less than one interval (less the tolerance) left, and
      once it has run it leaves no less than `-Epsilon`. */
  function Drain(acc: real, interval: real): (r: real)
    requires interval > 0.0
    ensures r + Epsilon < interval
    ensures r <= acc
    ensures r == acc || r >= -Epsilon
    ensures acc + Epsilon < interval <==> r == acc
    ensures exists k: nat :: r == TakeOff(acc, interval, k)
    decreases ((acc + Epsilon) / interval).Floor
  {
    if acc + Epsilon >= interval then
      DrainStep(acc, interval);
      var r := Drain(acc - interval, interval);
      TakeOffOneMore(acc, acc - interval, interval, r);
      r
    else
      assert acc == TakeOff(acc, interval, 0);
      acc
  }

  /** The accumulator less `k` whole intervals. */
  function TakeOff(acc: real, interval: real, k: nat): real
  {
    acc - k as real * interval
  }

  /** Taking `k` intervals off `rest`, one interval below `acc`, is taking
      `k + 1` off `acc`. */
  lemma TakeOffOneMore(acc: real, rest: real, interval: real, r: real)
    requires rest == acc - interval
    requires exists k: nat :: r == TakeOff(rest, interval, k)
    ensures exists k: nat :: r == TakeOff(acc, interval, k)
  {
    var k: nat :| r == TakeOff(rest, interval, k);
    assert r == TakeOff(acc, interval, k + 1);
  }

  /** One turn of the loop lowers its measure by one and keeps it non-negative. */
  lemma DrainStep(acc: real, interval: real)
    requires interval > 0.0
    requires acc + Epsilon >= interval
    ensures 0 <= ((acc - interval + Epsilon) / interval).Floor
    ensures ((acc - interval + Epsilon) / interval).Floor == ((acc + Epsilon) / interval).Floor - 1
  {
    var x := (acc + Epsilon) / interval;
    var y := (acc - interval + Epsilon) / interval;
    assert x * interval == acc + Epsilon;
    assert y * interval == acc + Epsilon - interval;
    assert (y - (x - 1.0)) * interval == 0.0;
    ZeroProduct(y - (x - 1.0), interval);
    assert x >= 1.0;
  }

  lemma ZeroProduct(a: real, b: real)
    requires b > 0.0 && a * b == 0.0
    ensures a == 0.0
  {
  }

  /** update(dt): feeds `dt` seconds (a negative `dt` counts as zero) to the
      interval mode and says whether it fired. A stopped or paused timer, or
      one without a positive interval, does nothing. A repeating timer fires
      at most once per call, however many intervals `dt` covers, and keeps
      the remainder; a one-shot timer stops when it fires. */
  function Update(t: Timer, dt: real): (r: (Timer, bool))
    ensures !t.running || t.paused || t.intervalSec <= 0.0 ==> r == (t, false)
    ensures t.running && !t.paused && t.intervalSec > 0.0 ==>
              (r.1 <==> t.intervalAccum + Max0(dt) + Epsilon >= t.intervalSec)
    ensures r.1 && !t.repeat ==> !r.0.running && r.0.intervalAccum == 0.0
    ensures t.repeat ==> r.0.running == t.running
    ensures t.repeat && t.running && !t.paused && t.intervalSec > 0.0 ==>
              r.0.intervalAccum + Epsilon < r.0.intervalSec
    ensures t.intervalAccum >= -Epsilon ==> r.0.intervalAccum >= -Epsilon
    ensures r.0.intervalSec == t.intervalSec && r.0.repeat == t.repeat && r.0.paused == t.paused
    ensures r.0 == t.(running := r.0.running, intervalAccum := r.0.intervalAccum)
    ensures t.running && !t.paused && t.intervalSec > 0.0 && !r.1 ==>
              r.0.intervalAccum == t.intervalAccum + Max0(dt)
    ensures t.repeat && t.running && !t.paused && t.intervalSec > 0.0 && r.1 ==>
              r.0.intervalAccum == Drain(t.intervalAccum + Max0(dt), t.intervalSec)
  {
    if !t.running || t.paused || t.intervalSec <= 0.0 then (t, false)
    else
      var acc := t.intervalAccum + Max0(dt);
      if acc + Epsilon < t.intervalSec then (t.(intervalAccum := acc), false)
      else if !t.repeat then (t.(running := false, intervalAccum := 0.0), true)
      else (t.(intervalAccum := Drain(acc, t.intervalSec)), true)
  }

  // ----------------------------------------------------------- properties

  /** Time fed without firing is kept: a running timer fed `dt1`, then
      `dt2`, fires on the second call once the two together reach the
      interval. */
  lemma FeedingAccumulates(t: Timer, dt1: real, dt2: real)
    requires t.running && !t.paused && t.intervalSec > 0.0
    requires !Update(t, dt1).1
    requires t.intervalAccum + Max0(dt1) + Max0(dt2) + Epsilon >= t.intervalSec
    ensures Update(Update(t, dt1).0, dt2).1
  {
  }

  /** While stopped or paused the reading does not move with the clock. */
  lemma ElapsedFrozen(t: Timer, now1: real, now2: real)
    requires !t.running || t.paused
    ensures Elapsed(t, now1) == Elapsed(t, now2)
  {
  }

  /** While running, the reading advances exactly with the clock. */
  lemma ElapsedAdvances(t: Timer, now1: real, now2: real)
    requires t.running && !t.paused
    ensures Elapsed(t, now2) - Elapsed(t, now1) == now2 - now1
  {
  }

  /** A pause at `p` followed by a resume at `q` loses exactly the paused
      stretch: the reading at `q + d` is the reading at `p` plus `d`. */
  lemma PauseResume(t: Timer, p: real, q: real, d: real)
    requires t.running && !t.paused
    ensures Elapsed(Resume(Pause(t, p), q), q + d) == Elapsed(t, p) + d
  {
  }

  /** After a one-shot timer fires it is stopped, so every later update is
      silent until it is started again. */
  lemma {:induction false} OneShotFiresOnce(t: Timer, dt: real, later: seq<real>)
    requires !t.repeat
    requires Update(t, dt).1
    ensures !UpdateAll(Update(t, dt).0, later).1
  {
    SilentWhileStopped(Update(t, dt).0, later);
  }

  /** Feeds each time step in turn; says whether any of them fired. */
  function UpdateAll(t: Timer, dts: seq<real>): (r: (Timer, bool))
    ensures !t.running ==> !r.0.running
    decreases |dts|
  {
    if dts == [] then (t, false)
    else
      var step := Update(t, dts[0]);
      var rest := UpdateAll(step.0, dts[1..]);
      (rest.0, step.1 || rest.1)
  }

  /** A stopped timer stays stopped and silent, however long it is fed. */
  lemma {:induction false} SilentWhileStopped(t: Timer, dts: seq<real>)
    requires !t.running
    ensures !UpdateAll(t, dts).1
    decreases |dts|
  {
    if dts != [] {
      SilentWhileStopped(t, dts[1..]);
    }
  }

  /** With the interval cleared, updates never fire. */
  lemma ClearedNeverFires(t: Timer, dt: real)
    ensures !Update(ClearInterval(t), dt).1
  {
  }
}

=== FILE: wrappers.dfy ===
/** Failure-compatible wrappers used by every module of the model. */
module Wrappers {

  /** An optional value: the model's stand-in for a nullable pointer. */
  datatype Option<+T> = None | Some(value: T) {
    predicate IsFailure() { None? }

    function PropagateFailure<U>(): Option<U>
      requires None?
    {
      None
    }

    function Extract(): T
      requires Some?
    {
      value
    }

    function GetOr(default: T): T
    {
      match this
      case Some(v) => v
      case None => default
    }
  }

  /** A success value or an error value (the source's `bool` + error-string pairs). */
  datatype Result<+R, +E> = Success(value: R) | Failure(error: E) {
    predicate IsFailure() { Failure? }

    function PropagateFailure<U>(): Result<U, E>
      requires Failure?
    {
      Failure(error)
    }

    function Extract(): R
      requires Success?
    {
      value
    }
  }
}
